=== FILE: README.md ===
# ming containers in Dafny

A functional model of the four sequential containers of the `ming` header
library, with proofs of the properties their operations promise:

- **Union-find** (`DisjointSet<T>` and its twin `DisjointSetUnion<T>`), module
  `UnionFind` in `union_find.dfy`. The pointer forest is an arena
  `seq<Node>`: each node has an optional parent index and a rank, and handles
  are indices. The payload `T` plays no part in set semantics and is dropped.
  `Valid` says that every parent index is in range and that ranks strictly
  increase along parent edges. That gives acyclicity and the termination
  measure of `find`. The two classes run the same algorithm, so one model
  covers both and the table cites both files.
  `merge` of two nodes that already share a root links that root under
  itself (see Findings). The root becomes its own parent, so a later `find`
  in that set never reaches a parentless node. Merging two members of one set
  must leave the partition as it is, so `Merge` guards against equal roots.
  `LinkAsWritten` is the linking step exactly as the code has it.
- **Weighted LRU cache** (`WeightedLRU<K,V>`), module `WeightedLru` in
  `weighted_lru.dfy`. The state is a capacity, a running total and a store of
  `(key, value, size)` entries, most recently used first. The hash index of
  the class is `IndexOf` over the store. `Valid` says that the total equals
  the sum of the stored sizes and that keys are pairwise distinct.
- **Prefix tree** (`Trie`), module `PrefixTree` in `trie.dfy`. It is a
  recursive datatype `Node(endOfWord, children: map<char, Trie>)`, related to
  the abstract set of inserted words.
- **Skip list** (`SkipList<Key,T,Compare>`), module `SkipLists` in
  `skiplist.dfy`:
  - The level-0 chain is a strictly ascending sequence of nodes, each with an
    integer key, a value and a tower height.
  - The level-`i` chain is the sub-sequence of nodes whose height exceeds `i`
    (`Chain`), so the forward pointers are derived, not stored.
  - `ToMap` gives the finite map the list stands for.
  - The random tower height becomes an input.

`wrappers.dfy` holds `Option` and `Result` (module `Wrappers`).

## Model

| member | source | states |
|---|---|---|
| UnionFind.Find | include/ming/disjoint_set.hpp:163-169 | In a valid forest, `find` returns the parentless node that ends `i`'s parent chain: it is on that chain and has no parent. A root is its own representative. Any other node's representative has a strictly higher rank. Termination rests on the rank order. |
| UnionFind.FindIdempotent | include/ming/disjoint_set_union.hpp:115-121 | `find(find(a)) == find(a)`. |
| UnionFind.Compress | include/ming/disjoint_set.hpp:99-105 | `path_compress(node, root)` keeps the forest valid and keeps every rank and every node's representative. Every node on the walked path ends at most one hop from `root`. Nodes off the path are untouched. |
| UnionFind.CompressTwo | include/ming/disjoint_set.hpp:174-175 | Compressing `a`'s path and then `b`'s path onto their roots leaves every node on either path one hop from its root and every node on neither path untouched. |
| UnionFind.Insert | include/ming/disjoint_set.hpp:156-161 | `insert` appends a parentless node of rank 0. No existing node changes. The new node is its own root, and no old node's root is the new node. |
| UnionFind.AreSameSet | include/ming/disjoint_set.hpp:171-177 | `are_same_set` answers true exactly when the two representatives coincide. Afterwards every node on either query path is at most one hop from its root, and every node on neither path is untouched. Ranks and every representative are unchanged. |
| UnionFind.Link | include/ming/disjoint_set.hpp:183-190 | The rank rule for distinct roots. `a`'s root survives on a tie or a higher rank, and it gains exactly one rank on a tie. Otherwise `b`'s root survives and no rank changes. The survivor stays parentless, the other root is hung under it, and no other node changes. The two classes are joined and every other class is unchanged. |
| UnionFind.LinkAndCompress | include/ming/disjoint_set_union.hpp:131-145 | `merge` under the precondition that the roots differ. The forest stays valid and `a` and `b` end in the same set, under the surviving root. Exactly the two classes are joined. Only the survivor's rank changes, and only on a tie. Every node on either argument path ends at most one hop from the new root, and every node on neither path is untouched. |
| UnionFind.LinkAsWritten | include/ming/disjoint_set.hpp:183-190 | The linking step as written, for any two roots. When `a`'s root has rank at least `b`'s, `b`'s root gets `a`'s root as parent, and `a`'s root gains one rank exactly on a tie. Otherwise `a`'s root gets `b`'s root as parent and `b`'s root is untouched. The root that is hung keeps its rank in both cases. No other node changes. |
| UnionFind.Merge | include/ming/disjoint_set.hpp:179-193 | `merge` with the guard on equal roots. When `a` and `b` already share a root nothing changes. Otherwise the result is that of `LinkAndCompress`. In both cases the forest stays valid and `a`, `b` end in one set. |
| UnionFind.MergeNeverSplits | include/ming/disjoint_set.hpp:179-193 | Nodes in one set before `merge` are in one set after it. |
| UnionFind.SelfMergeCreatesCycle | include/ming/disjoint_set.hpp:180-186 | Linking a root with itself, as `merge` does when both nodes share a root, makes the root its own parent and raises its rank by one. The forest is then invalid. |
| UnionFind.ThreeSingletonsScenario | tests/disjoint_set.cpp:53-71 | Three singletons: merging the first with the second and then with the third leaves the first as a rank-1 root with both others directly below it. |
| UnionFind.InsertThreeScenario | tests/disjoint_set.cpp:53 | Inserting three elements into an empty forest gives three parentless nodes of rank 0. |
| UnionFind.FirstMergeScenario | tests/disjoint_set.cpp:34-48 | Merging two fresh singletons hangs the second under the first, which gains rank 1. The third stays a separate root. |
| WeightedLru.New | include/ming/weighted_lru.hpp:44 | A new cache has the given capacity, a zero total and no keys. |
| WeightedLru.IndexOf | include/ming/weighted_lru.hpp:41 | The position index: the position returned holds the key, and there is none exactly when the key is not stored. |
| WeightedLru.Get | include/ming/weighted_lru.hpp:46-55 | On a miss the cache is unchanged and the error is "No such key!". On a hit the stored value is returned and that entry moves to the front, with the others keeping their order. Capacity, total and the multiset of entries are unchanged, and the invariant holds. |
| WeightedLru.Evict | include/ming/weighted_lru.hpp:69-74 | Eviction drops entries only from the LRU end, so the survivors are a prefix of the store in their old order. It stops as soon as the new item fits: every longer prefix of the store would not fit beside the item, so the fewest entries are dropped. It returns the survivors' exact weight, and it never needs to pop an empty store. |
| WeightedLru.Unlink | include/ming/weighted_lru.hpp:62-67 | Unlinking a stored key removes exactly one entry, that key's, with the others in their order. With distinct keys the key set loses exactly that key. The total equals the weight of what remains. A key that is not stored leaves store and total as they were. |
| WeightedLru.Put | include/ming/weighted_lru.hpp:57-79 | `put` fails with "Sorry this is too big!" exactly when the size exceeds the capacity. Otherwise the new entry is at the front. The rest is a prefix of the old store with the key's old entry removed, and no longer prefix of it would fit beside the new entry. The total equals the stored weight, is at most the capacity, and keys stay distinct. |
| WeightedLru.PutThenGet | include/ming/weighted_lru.hpp:76-78 | After a successful `put(k, v, s)`, `get(k)` returns `v` and leaves the cache as it was. |
| WeightedLru.EvictionOrderAfterAccessScenario | tests/weighted_lru.cpp:95-110 | Capacity 10: put `a` and `b` of size 4, touch `a`, then put `c` of size 4. This evicts `b`, and `a` and `c` keep their values. |
| WeightedLru.MissingKeyScenario | tests/weighted_lru.cpp:30-34 | A fresh cache of capacity 10 answers a lookup of "missing" with "No such key!" and stays as it was. |
| WeightedLru.ScenarioLookups | tests/weighted_lru.cpp:102-109 | A lookup of an absent key fails with "No such key!", and a lookup of a present key returns its value. |
| PrefixTree.Insert | include/ming/trie.hpp:62-72 | After `insert(w)`, both `search(w)` and `starts_with(w)` hold. |
| PrefixTree.WalkConcat | include/ming/trie.hpp:74-96 | The walk of `search` and `starts_with` reads one character at a time: reading `p` then `q` is reading `q` from the node `p` reaches, and a missing child ends the walk for good. |
| PrefixTree.Search | include/ming/trie.hpp:74-84 | A stored word is a stored prefix. The empty word is stored exactly when the root ends a word. A word whose first character has no child is not stored. |
| PrefixTree.StartsWith | include/ming/trie.hpp:86-96 | The empty prefix is always stored. A prefix whose first character has no child is not stored. |
| PrefixTree.PrefixOfStartsWith | include/ming/trie.hpp:86-96 | Every prefix of a stored prefix is itself a stored prefix. |
| PrefixTree.SearchAfterInsert | include/ming/trie.hpp:74-84 | After `insert(w)`, `search(u)` holds exactly when `u == w` or it held before, so no other word changes. |
| PrefixTree.StartsWithAfterInsert | include/ming/trie.hpp:86-96 | After `insert(w)`, `starts_with(p)` holds exactly when `p` is a prefix of `w` or it held before. |
| PrefixTree.SearchImpliesStartsWith | include/ming/trie.hpp:74-96 | A stored word is also a stored prefix. |
| PrefixTree.InsertIdempotent | include/ming/trie.hpp:62-72 | Inserting a word twice gives the same tree as inserting it once. |
| PrefixTree.InsertAllContents | include/ming/trie.hpp:62-96 | With only inserts, `search(u)` holds exactly when `u` was inserted. `starts_with(u)` holds exactly when `u` is empty or is a prefix of some inserted word. |
| PrefixTree.EmptyTrie | include/ming/trie.hpp:37 | A new trie stores no word, and only the empty prefix. |
| PrefixTree.WordScenario | tests/trie.cpp:24-34 | After inserting "word": "word" is found; "word_not_exist" and "not_exist" are not; "wo" is a prefix and "po" is not. |
| SkipLists.Next | include/ming/skiplist.hpp:92-94 | The forward pointer on a level is the first later node whose tower reaches that level, or null. Every node skipped is below the level. |
| SkipLists.Descend | include/ming/skiplist.hpp:91-97 | `m_descend` returns the last node on the given level whose key is below the target, or the start if there is none. |
| SkipLists.Descents | include/ming/skiplist.hpp:128-132 | The top-down search fills `update[i]` with the last node on level `i` below the key, for every level in use. |
| SkipLists.Predecessor | include/ming/skiplist.hpp:174-178 | The node the search lands on is preceded only by smaller keys and followed only by keys at least the target. |
| SkipLists.New | include/ming/skiplist.hpp:103-106 | A new list is valid, empty, of size 0. |
| SkipLists.Search | include/ming/skiplist.hpp:170-187 | `search` succeeds exactly when the key is mapped and then yields its value. Otherwise the out-parameter is untouched. |
| SkipLists.Contains | include/ming/skiplist.hpp:196-199 | `contains` holds exactly when the key is mapped. |
| SkipLists.InsertUpdates | include/ming/skiplist.hpp:128-149 | The `update` vector of `insert` has one entry per level of the grown list. Each entry is the last node on its level whose key is below the new key, and it is the head on every newly added level. |
| SkipLists.InsertSplicesLevels | include/ming/skiplist.hpp:150-156 | On each level below the new tower's height, the new node enters that level's chain right after `update[i]`, between it and its old successor. Every higher level's chain is unchanged. |
| SkipLists.Insert | include/ming/skiplist.hpp:124-160 | A key already present is rejected and nothing changes. A fresh key is added to the map, the size grows by one and the levels in use rise to the new tower height if it is higher. The list stays valid: sorted, heights within the levels in use, and the top level non-empty. |
| SkipLists.ShrinkLevel | include/ming/skiplist.hpp:231-233 | The levels in use drop while the head's top forward pointer is null. They stay at least 1 and still cover every tower. |
| SkipLists.Erase | include/ming/skiplist.hpp:208-240 | For a present key, `erase` succeeds, removes exactly that key, shrinks the size by one and keeps the list valid. For an absent key it fails and nothing changes. |
| SkipLists.EraseBreaksAboveTower | include/ming/skiplist.hpp:221-228 | For a present key, `update[i]`'s forward pointer on level `i` is the erased node exactly on the levels its tower covers. So the unlink loop's `break` fires at the first level above the tower and never below it. |
| SkipLists.EraseUnlinksLevels | include/ming/skiplist.hpp:221-228 | For a present key, on each level the erased tower covers, that level's chain loses exactly the erased node, which sat right after `update[i]`. Every higher level's chain is unchanged. |
| SkipLists.RandomLevel | include/ming/skiplist.hpp:75-80 | The drawn level is in `[1, MAX_LEVEL]`. It climbs once per successful draw and stops at the first failure or at `MAX_LEVEL`. |
| SkipLists.Size | include/ming/skiplist.hpp:247 | `size` is the number of mapped keys. |
| SkipLists.IsEmpty | include/ming/skiplist.hpp:255 | `empty` holds exactly when no key is mapped. |
| SkipLists.Items | include/ming/skiplist.hpp:272-277 | Iteration from `begin()` yields every mapped key exactly once, with its value, in strictly ascending key order. |
| SkipLists.FindPosition | include/ming/skiplist.hpp:314-328 | `find` gives the iteration position of the key's node exactly when the key is mapped, and `end()` otherwise. |
| SkipLists.BasicOperationsScenario | tests/skiplist.cpp:12-52 | Insert 5, 3 and 7, then 5 again. The duplicate is rejected, the size is 3 and each key is found with its value, whatever tower heights are drawn. Erasing 3 succeeds and leaves size 2. Erasing 10 fails. |

## Left out

- Ownership and lifetimes are not modelled: `shared_ptr`/`unique_ptr`, reference cycles, and the copy/move constructors and assignments of the union-find nodes and the trie. Nodes are arena indices or immutable values.
- The trie's copy constructor and `clone` (include/ming/trie.hpp:18-60) are not modelled. They set the end-of-word flag on the parent rather than the copied child, and the top-level copy drops those flags, so no "copy preserves words" property would hold.
- The `DisjointSet::Iterator` wrapper, including the `operator++` that throws, is not modelled: handles are indices.
- The union-find payload `T` is not modelled.
- UnionFind.Find: ranks are unbounded naturals. `DisjointSet` stores the rank as `std::uint64_t` and `DisjointSetUnion` as `int`. While every merge joins distinct roots, a rank is at most the base-2 log of the set size, so neither overflows in practice. The self-merge in Findings breaks that bound: it raises the rank of a set of one, and repeating it raises the rank each time, so the stored rank can wrap there.
- SkipLists.Insert: the tower height is an input in `[1, MAX_LEVEL]` rather than drawn from `std::mt19937`. `RandomLevel` models the draw loop over a sequence of coin outcomes, and it reads an exhausted sequence as a failed draw.
- SkipLists.Search: keys are integers under `<` rather than a generic `Compare`. "Equivalent" is `!(a < b) && !(b < a)`, as in the class.
- The skip list's per-node forward vectors are not stored. They are derived from tower heights, so the class's `level < forward.size()` and `forward.empty()` checks always pass in the model.
- WeightedLru.Put: sizes and totals are unbounded integers. The class's `int` sum `m_current_cap + size` can overflow when the capacity is near `INT_MAX`, and the model does not follow that.
- WeightedLru.Put: the exception for an oversize item is an `Err` result, and the caller keeps its unchanged cache.
- Characters: Dafny's `char` stands for the byte-sized `char` that the trie reads from a `std::string_view`. Keys are compared character by character, with no encoding involved.
- Everything under `bench/` (timing, random workloads) and `examples/` (printing) is not modelled.

## Findings

| source | as written | input that shows it | evidently intended | confidence | as-written member | corrected member |
|---|---|---|---|---|---|---|
| include/ming/disjoint_set.hpp:180-186 (and include/ming/disjoint_set_union.hpp:132-138) | `merge` links `root_b` under `root_a` without checking that they differ. | `merge(x, x)`, or `merge(a, b)` after `a` and `b` were already merged. Both roots are the same node with equal ranks, so it becomes its own parent and its rank grows by one. Any later `find` in that set loops forever. | Merging two nodes of the same set leaves the structure unchanged. | high; not executed | UnionFind.SelfMergeCreatesCycle (with UnionFind.LinkAsWritten) | UnionFind.Merge |

=== FILE: skiplist.dfy ===
/**
 * An ordered map kept as a skip list, as implemented by `SkipList<Key, T,
 * Compare>`. Keys are integers under `<`, standing for the comparator's
 * strict total order; two keys are equivalent when neither is below the other.
 *
 * The state is the level-0 chain as a sequence of nodes, each with the height
 * of its tower of forward pointers. The level-i chain is not stored
 * separately: it is the subsequence of nodes whose height exceeds i (`Chain`).
 * `InsertSplicesLevels` and `EraseUnlinksLevels` show that `insert` and
 * `erase` change each level's chain exactly as the class's per-level pointer
 * surgery does. A position in the chain is an index, with -1 standing for the
 * head node, whose tower is full.
 */
module SkipLists {
  import opened Wrappers

  /** The tallest tower a node may have. */
  const MaxLevel: nat := 32

  /** The position of the head node, before every real node on every level. */
  const Head: int := -1

  datatype Node<V> = Node(key: int, value: V, height: nat)

  /** The skip list: level-0 chain in key order, levels in use (`m_level`) and element count (`m_size`). */
  datatype SkipList<V> = SkipList(nodes: seq<Node<V>>, level: nat, size: nat)

  /** Equivalence under the comparator: neither key is below the other. */
  predicate Equiv(a: int, b: int) {
    !(a < b) && !(b < a)
  }

  /** The level-0 chain is strictly ascending. */
  predicate Sorted<V>(nodes: seq<Node<V>>) {
    forall i, j :: 0 <= i < j < |nodes| ==> nodes[i].key < nodes[j].key
  }

  /** The head's forward pointer at level `lvl` is set: some node's tower rises above `lvl`. */
  predicate HeadLinksAt<V>(nodes: seq<Node<V>>, lvl: nat) {
    exists i :: 0 <= i < |nodes| && nodes[i].height > lvl
  }

  /**
   * The representation invariant: ascending keys, every tower between 1 and
   * the levels in use, the levels in use between 1 and `MaxLevel` with the
   * top one occupied unless it is level 1, and the count equal to the chain length.
   */
  ghost predicate Valid<V>(sl: SkipList<V>) {
    && Sorted(sl.nodes)
    && 1 <= sl.level <= MaxLevel
    && (forall i :: 0 <= i < |sl.nodes| ==> 1 <= sl.nodes[i].height <= sl.level)
    && (sl.level == 1 || HeadLinksAt(sl.nodes, sl.level - 1))
    && sl.size == |sl.nodes|
  }

  /** The finite map the skip list represents: each node's key bound to its value. */
  function ToMap<V>(nodes: seq<Node<V>>): map<int, V> {
    if |nodes| == 0 then map[]
    else ToMap(nodes[..|nodes| - 1])[nodes[|nodes| - 1].key := nodes[|nodes| - 1].value]
  }

  /** In an ascending chain, the map holds exactly the chain's keys, each bound to its node's value. */
  lemma {:induction false} ToMapFacts<V>(nodes: seq<Node<V>>)
    requires Sorted(nodes)
    ensures forall i :: 0 <= i < |nodes| ==> nodes[i].key in ToMap(nodes) && ToMap(nodes)[nodes[i].key] == nodes[i].value
    ensures forall k :: k in ToMap(nodes) ==> exists i :: 0 <= i < |nodes| && nodes[i].key == k
    ensures |ToMap(nodes)| == |nodes|
    decreases |nodes|
  {
    if |nodes| > 0 {
      var init := nodes[..|nodes| - 1];
      var last := nodes[|nodes| - 1];
      ToMapFacts(init);
      assert forall i :: 0 <= i < |init| ==> init[i] == nodes[i];
      assert last.key !in ToMap(init);
    }
  }

  /** The chain of nodes at level `lvl`: those whose tower rises above it. */
  function Chain<V>(nodes: seq<Node<V>>, lvl: nat): seq<Node<V>> {
    if |nodes| == 0 then []
    else Chain(nodes[..|nodes| - 1], lvl) + (if nodes[|nodes| - 1].height > lvl then [nodes[|nodes| - 1]] else [])
  }

  lemma {:induction false} ChainAppend<V>(a: seq<Node<V>>, b: seq<Node<V>>, lvl: nat)
    requires |b| <= 1
    ensures Chain(a + b, lvl) == Chain(a, lvl) + Chain(b, lvl)
  {
    if |b| == 1 {
      assert (a + b)[..|a + b| - 1] == a;
      assert b[..0] == [];
    } else {
      assert a + b == a;
    }
  }

  /** The chain of a concatenation is the concatenation of the chains. */
  lemma {:induction false} ChainConcat<V>(a: seq<Node<V>>, b: seq<Node<V>>, lvl: nat)
    ensures Chain(a + b, lvl) == Chain(a, lvl) + Chain(b, lvl)
    decreases |b|
  {
    if |b| <= 1 {
      ChainAppend(a, b, lvl);
    } else {
      var init := b[..|b| - 1];
      var last := [b[|b| - 1]];
      assert b == init + last;
      assert a + b == (a + init) + last;
      ChainAppend(a + init, last, lvl);
      ChainConcat(a, init, lvl);
      ChainAppend(init, last, lvl);
    }
  }

  /** A run of nodes none of whose towers rises above `lvl` contributes nothing to that level. */
  lemma {:induction false} ChainFlat<V>(s: seq<Node<V>>, lvl: nat)
    requires forall k :: 0 <= k < |s| ==> s[k].height <= lvl
    ensures Chain(s, lvl) == []
    decreases |s|
  {
    if |s| > 0 {
      ChainFlat(s[..|s| - 1], lvl);
    }
  }

  /** Cutting the chain anywhere splits each level's chain at the same place. */
  lemma ChainSplit<V>(nodes: seq<Node<V>>, k: nat, lvl: nat)
    requires k <= |nodes|
    ensures Chain(nodes, lvl) == Chain(nodes[..k], lvl) + Chain(nodes[k..], lvl)
  {
    assert nodes == nodes[..k] + nodes[k..];
    ChainConcat(nodes[..k], nodes[k..], lvl);
  }

  lemma ChainSingle<V>(n: Node<V>, lvl: nat)
    ensures Chain([n], lvl) == if n.height > lvl then [n] else []
  {
    assert [n][..0] == [];
  }

  /** No node strictly between position `u` and index `c` is on level `lvl`: on that level, `c` comes right after `u`. */
  ghost predicate ClearBetween<V>(nodes: seq<Node<V>>, u: int, c: int, lvl: nat) {
    forall k :: u < k < c && 0 <= k < |nodes| ==> nodes[k].height <= lvl
  }

  /**
   * Cutting the chain after `u` or at `c` gives the same level-`lvl` halves
   * when no node strictly between them is on that level.
   */
  lemma ChainCut<V>(nodes: seq<Node<V>>, u: int, c: nat, lvl: nat)
    requires Head <= u < c <= |nodes| && ClearBetween(nodes, u, c, lvl)
    ensures Chain(nodes, lvl) == Chain(nodes[..c], lvl) + Chain(nodes[c..], lvl)
    ensures Chain(nodes[..c], lvl) == Chain(nodes[..u + 1], lvl)
    ensures Chain(nodes[u + 1..], lvl) == Chain(nodes[c..], lvl)
  {
    var mid := nodes[u + 1..c];
    assert forall k :: 0 <= k < |mid| ==> mid[k] == nodes[u + 1 + k];
    ChainFlat(mid, lvl);
    assert nodes == nodes[..c] + nodes[c..];
    ChainConcat(nodes[..c], nodes[c..], lvl);
    assert nodes[..c] == nodes[..u + 1] + mid;
    ChainConcat(nodes[..u + 1], mid, lvl);
    assert nodes[u + 1..] == mid + nodes[c..];
    ChainConcat(mid, nodes[c..], lvl);
  }

  /** Position `p` is on level `lvl`: the head, or a node whose tower rises above `lvl`. */
  predicate OnLevel<V>(nodes: seq<Node<V>>, p: int, lvl: nat) {
    p == Head || (0 <= p < |nodes| && nodes[p].height > lvl)
  }

  /** The forward pointer at level `lvl` of position `p`: the next node on that level, or `|nodes|` for null. */
  function Next<V>(nodes: seq<Node<V>>, p: int, lvl: nat): (j: int)
    requires Head <= p < |nodes|
    ensures p < j <= |nodes|
    ensures j < |nodes| ==> nodes[j].height > lvl
    ensures forall k :: p < k < j ==> nodes[k].height <= lvl
    decreases |nodes| - p
  {
    if p + 1 == |nodes| then |nodes|
    else if nodes[p + 1].height > lvl then p + 1
    else Next(nodes, p + 1, lvl)
  }

  /** `r` is the last position on level `lvl` whose key is below `key` (the head if none is). */
  ghost predicate LastBelow<V>(nodes: seq<Node<V>>, lvl: nat, key: int, r: int) {
    && Head <= r < |nodes|
    && OnLevel(nodes, r, lvl)
    && (r == Head || nodes[r].key < key)
    && forall k :: r < k < |nodes| && nodes[k].height > lvl ==> !(nodes[k].key < key)
  }

  /**
   * `m_descend`: from a position on level `lvl` whose key is below `key`,
   * follow level-`lvl` forward pointers while the next key is below `key`.
   * The result is the last node on that level below `key`.
   */
  function Descend<V>(nodes: seq<Node<V>>, p: int, lvl: nat, key: int): (r: int)
    requires Sorted(nodes) && Head <= p < |nodes| && OnLevel(nodes, p, lvl)
    requires p == Head || nodes[p].key < key
    ensures p <= r && LastBelow(nodes, lvl, key, r)
    decreases |nodes| - p
  {
    var j := Next(nodes, p, lvl);
    if j < |nodes| && nodes[j].key < key then Descend(nodes, j, lvl, key) else p
  }

  /**
   * The top-down search shared by `insert`, `search` and `erase`: descend
   * level `lvl - 1`, then each level below it, recording where each level
   * stopped. Entry `i` of the result is `update[i]` of `insert` and `erase`.
   */
  function Descents<V>(nodes: seq<Node<V>>, p: int, lvl: nat, key: int): (update: seq<int>)
    requires Sorted(nodes) && Head <= p < |nodes|
    requires p == Head || (nodes[p].key < key && nodes[p].height >= lvl)
    ensures |update| == lvl
    ensures forall i :: 0 <= i < lvl ==> LastBelow(nodes, i, key, update[i])
    decreases lvl
  {
    if lvl == 0 then []
    else
      var q := Descend(nodes, p, lvl - 1, key);
      Descents(nodes, q, lvl - 1, key) + [q]
  }

  /**
   * The node the search lands before: the last node of the whole chain whose
   * key is below `key`, or the head. Every node after it has a key at least `key`.
   */
  function Predecessor<V>(sl: SkipList<V>, key: int): (r: int)
    requires Valid(sl)
    ensures Head <= r < |sl.nodes|
    ensures forall k :: 0 <= k <= r ==> sl.nodes[k].key < key
    ensures forall k :: r < k < |sl.nodes| ==> key <= sl.nodes[k].key
  {
    Descents(sl.nodes, Head, sl.level, key)[0]
  }

  /** A new, empty skip list: one level in use and no nodes. */
  function New<V>(): (sl: SkipList<V>)
    ensures Valid(sl) && ToMap(sl.nodes) == map[] && sl.size == 0
  {
    SkipList([], 1, 0)
  }

  /** `search`: report whether an equivalent key is present, writing its value to `out` only when it is. */
  function Search<V>(sl: SkipList<V>, key: int, out: V): (r: (bool, V))
    requires Valid(sl)
    ensures r.0 <==> key in ToMap(sl.nodes)
    ensures r.0 ==> r.1 == ToMap(sl.nodes)[key]
    ensures !r.0 ==> r.1 == out
  {
    var c := Predecessor(sl, key) + 1;
    Locate(sl.nodes, c, key);
    if c < |sl.nodes| && Equiv(sl.nodes[c].key, key) then (true, sl.nodes[c].value) else (false, out)
  }

  /** `contains`: `search` with a scratch out-parameter, keeping only the verdict. */
  function Contains<V>(sl: SkipList<V>, key: int, scratch: V): (r: bool)
    requires Valid(sl)
    ensures r <==> key in ToMap(sl.nodes)
  {
    Search(sl, key, scratch).0
  }

  /**
   * Where the descent lands decides membership: `key` is present exactly when
   * the node right after the predecessor holds it.
   */
  lemma Locate<V>(nodes: seq<Node<V>>, c: nat, key: int)
    requires Sorted(nodes) && c <= |nodes|
    requires forall k :: 0 <= k < c ==> nodes[k].key < key
    requires forall k :: c <= k < |nodes| ==> key <= nodes[k].key
    ensures key in ToMap(nodes) <==> c < |nodes| && nodes[c].key == key
    ensures c < |nodes| && nodes[c].key == key ==> ToMap(nodes)[key] == nodes[c].value
  {
    ToMapFacts(nodes);
    if key in ToMap(nodes) {
      var i :| 0 <= i < |nodes| && nodes[i].key == key;
      assert c <= i;
      SortedLe(nodes, c, i);
    }
  }

  lemma SortedLe<V>(nodes: seq<Node<V>>, a: nat, b: nat)
    requires Sorted(nodes) && a <= b < |nodes|
    ensures nodes[a].key <= nodes[b].key
  {
  }

  lemma InsertSorted<V>(nodes: seq<Node<V>>, c: nat, n: Node<V>)
    requires Sorted(nodes) && c <= |nodes|
    requires forall k :: 0 <= k < c ==> nodes[k].key < n.key
    requires forall k :: c <= k < |nodes| ==> n.key < nodes[k].key
    ensures Sorted(nodes[..c] + [n] + nodes[c..])
  {
    var t := nodes[..c] + [n] + nodes[c..];
    forall a, b | 0 <= a < b < |t| ensures t[a].key < t[b].key {
      var a' := if a < c then a else a - 1;
      var b' := if b < c then b else b - 1;
      assert a < c ==> t[a] == nodes[a];
      assert a > c ==> t[a] == nodes[a - 1];
      assert b < c ==> t[b] == nodes[b];
      assert b > c ==> t[b] == nodes[b - 1];
    }
  }

  /** Splicing in a node whose key no later node holds binds that key in the map. */
  lemma {:induction false} InsertToMap<V>(nodes: seq<Node<V>>, c: nat, n: Node<V>)
    requires c <= |nodes|
    requires forall k :: c <= k < |nodes| ==> n.key != nodes[k].key
    ensures ToMap(nodes[..c] + [n] + nodes[c..]) == ToMap(nodes)[n.key := n.value]
    decreases |nodes|
  {
    var t := nodes[..c] + [n] + nodes[c..];
    if c == |nodes| {
      assert t[..|t| - 1] == nodes;
    } else {
      var init := nodes[..|nodes| - 1];
      var last := nodes[|nodes| - 1];
      assert t[..|t| - 1] == init[..c] + [n] + init[c..];
      assert t[|t| - 1] == last;
      InsertToMap(init, c, n);
    }
  }

  lemma RemoveSorted<V>(nodes: seq<Node<V>>, c: nat)
    requires Sorted(nodes) && c < |nodes|
    ensures Sorted(nodes[..c] + nodes[c + 1..])
  {
    var t := nodes[..c] + nodes[c + 1..];
    forall a, b | 0 <= a < b < |t| ensures t[a].key < t[b].key {
      assert t[a] == if a < c then nodes[a] else nodes[a + 1];
      assert t[b] == if b < c then nodes[b] else nodes[b + 1];
    }
  }

  /** Unlinking the node at `c` from an ascending chain unbinds exactly its key. */
  lemma {:induction false} RemoveToMap<V>(nodes: seq<Node<V>>, c: nat)
    requires Sorted(nodes) && c < |nodes|
    ensures ToMap(nodes[..c] + nodes[c + 1..]) == ToMap(nodes) - {nodes[c].key}
    decreases |nodes|
  {
    var t := nodes[..c] + nodes[c + 1..];
    var init := nodes[..|nodes| - 1];
    var last := nodes[|nodes| - 1];
    assert Sorted(init);
    if c == |nodes| - 1 {
      assert t == init;
      ToMapFacts(init);
      UpdateThenRemove(ToMap(init), last.key, last.value);
    } else {
      assert t[..|t| - 1] == init[..c] + init[c + 1..];
      assert t[|t| - 1] == last;
      assert init[c] == nodes[c];
      RemoveToMap(init, c);
      assert nodes[c].key < last.key;
      RemoveThenUpdate(ToMap(init), last.key, last.value, nodes[c].key);
    }
  }

  lemma UpdateThenRemove<V>(m: map<int, V>, k: int, v: V)
    requires k !in m
    ensures m[k := v] - {k} == m
  {
  }

  lemma RemoveThenUpdate<V>(m: map<int, V>, k: int, v: V, r: int)
    requires k != r
    ensures (m - {r})[k := v] == m[k := v] - {r}
  {
  }

  /** The maximum of two levels. */
  function MaxOf(a: nat, b: nat): nat {
    if a > b then a else b
  }

  /** Splicing a fresh node in after its predecessor keeps the list valid and binds its key. */
  lemma InsertSpliced<V>(sl: SkipList<V>, c: nat, n: Node<V>)
    requires Valid(sl) && c <= |sl.nodes| && 1 <= n.height <= MaxLevel
    requires forall k :: 0 <= k < c ==> sl.nodes[k].key < n.key
    requires forall k :: c <= k < |sl.nodes| ==> n.key <= sl.nodes[k].key
    requires c < |sl.nodes| ==> sl.nodes[c].key != n.key
    ensures var t := sl.nodes[..c] + [n] + sl.nodes[c..];
      && Valid(SkipList(t, MaxOf(n.height, sl.level), sl.size + 1))
      && ToMap(t) == ToMap(sl.nodes)[n.key := n.value]
  {
    var t := sl.nodes[..c] + [n] + sl.nodes[c..];
    var level := MaxOf(n.height, sl.level);
    forall k | c <= k < |sl.nodes| ensures n.key < sl.nodes[k].key {
      if k > c {
        assert sl.nodes[c].key < sl.nodes[k].key;
      }
    }
    InsertSorted(sl.nodes, c, n);
    InsertToMap(sl.nodes, c, n);
    InsertLevels(sl, c, n);
  }

  /** The spliced node's tower fits the raised level count, and the top level stays occupied. */
  lemma InsertLevels<V>(sl: SkipList<V>, c: nat, n: Node<V>)
    requires Valid(sl) && c <= |sl.nodes| && 1 <= n.height <= MaxLevel
    ensures var t := sl.nodes[..c] + [n] + sl.nodes[c..];
      var level := MaxOf(n.height, sl.level);
      && (forall i :: 0 <= i < |t| ==> 1 <= t[i].height <= level)
      && (level == 1 || HeadLinksAt(t, level - 1))
  {
    var t := sl.nodes[..c] + [n] + sl.nodes[c..];
    var level := MaxOf(n.height, sl.level);
    assert forall k :: 0 <= k < |t| ==> t[k] == if k < c then sl.nodes[k] else if k == c then n else sl.nodes[k - 1];
    if level > 1 && level == sl.level {
      var i :| 0 <= i < |sl.nodes| && sl.nodes[i].height > sl.level - 1;
      assert t[if i < c then i else i + 1] == sl.nodes[i];
    } else if level > 1 {
      assert t[c] == n;
    }
  }

  /**
   * `insert`: descend to the predecessor; if the next node holds an
   * equivalent key, reject the duplicate and change nothing. Otherwise splice
   * a node of tower height `newLevel` in after the predecessor on every level
   * below `newLevel`, raising the levels in use to `newLevel` if it is higher.
   * `newLevel` stands for the level `get_random_level` draws.
   */
  function Insert<V>(sl: SkipList<V>, key: int, value: V, newLevel: nat): (r: (SkipList<V>, bool))
    requires Valid(sl) && 1 <= newLevel <= MaxLevel
    ensures Valid(r.0)
    ensures r.1 <==> key !in ToMap(sl.nodes)
    ensures !r.1 ==> r.0 == sl
    ensures r.1 ==> ToMap(r.0.nodes) == ToMap(sl.nodes)[key := value]
    ensures r.1 ==> r.0.size == sl.size + 1
    ensures r.1 ==> r.0.level == if newLevel > sl.level then newLevel else sl.level
  {
    var c := Predecessor(sl, key) + 1;
    Locate(sl.nodes, c, key);
    if c < |sl.nodes| && Equiv(sl.nodes[c].key, key) then (sl, false)
    else
      var n := Node(key, value, newLevel);
      InsertSpliced(sl, c, n);
      (SkipList(sl.nodes[..c] + [n] + sl.nodes[c..], MaxOf(newLevel, sl.level), sl.size + 1), true)
  }

  /** Unlinking a node keeps the chain ascending with every tower in range, and unbinds its key. */
  lemma EraseUnlinked<V>(sl: SkipList<V>, c: nat)
    requires Valid(sl) && c < |sl.nodes|
    ensures var t := sl.nodes[..c] + sl.nodes[c + 1..];
      && (forall i :: 0 <= i < |t| ==> 1 <= t[i].height <= sl.level)
      && Sorted(t)
      && ToMap(t) == ToMap(sl.nodes) - {sl.nodes[c].key}
  {
    RemoveSorted(sl.nodes, c);
    RemoveToMap(sl.nodes, c);
    UnlinkIndex(sl.nodes, c);
  }

  lemma UnlinkIndex<V>(nodes: seq<Node<V>>, c: nat)
    requires c < |nodes|
    ensures var t := nodes[..c] + nodes[c + 1..];
      && |t| == |nodes| - 1
      && forall k :: 0 <= k < |t| ==> t[k] == if k < c then nodes[k] else nodes[k + 1]
  {
  }

  /** Once the levels in use are shrunk, the list with the node at `c` unlinked is valid again. */
  lemma EraseValid<V>(sl: SkipList<V>, c: nat)
    requires Valid(sl) && c < |sl.nodes|
    ensures var t := sl.nodes[..c] + sl.nodes[c + 1..];
      && (forall i :: 0 <= i < |t| ==> t[i].height <= sl.level)
      && Valid(SkipList(t, ShrinkLevel(t, sl.level), sl.size - 1))
  {
    EraseUnlinked(sl, c);
  }

  /** After `erase`: lower the levels in use while the head's top forward pointer is null. */
  function ShrinkLevel<V>(nodes: seq<Node<V>>, level: nat): (r: nat)
    requires 1 <= level
    requires forall i :: 0 <= i < |nodes| ==> nodes[i].height <= level
    ensures 1 <= r <= level
    ensures forall i :: 0 <= i < |nodes| ==> nodes[i].height <= r
    ensures r == 1 || HeadLinksAt(nodes, r - 1)
    decreases level
  {
    if level > 1 && !HeadLinksAt(nodes, level - 1) then ShrinkLevel(nodes, level - 1) else level
  }

  /**
   * `erase`: descend to the predecessor; if the next node holds an
   * equivalent key, unlink it from every level it is on, shrink the levels in
   * use, and report success. Otherwise change nothing.
   */
  function Erase<V>(sl: SkipList<V>, key: int): (r: (SkipList<V>, bool))
    requires Valid(sl)
    ensures Valid(r.0)
    ensures r.1 <==> key in ToMap(sl.nodes)
    ensures !r.1 ==> r.0 == sl
    ensures r.1 ==> ToMap(r.0.nodes) == ToMap(sl.nodes) - {key}
    ensures r.1 ==> r.0.size == sl.size - 1 && r.0.level <= sl.level
  {
    var c := Predecessor(sl, key) + 1;
    Locate(sl.nodes, c, key);
    if c < |sl.nodes| && Equiv(sl.nodes[c].key, key) then
      var nodes := sl.nodes[..c] + sl.nodes[c + 1..];
      EraseUnlinked(sl, c);
      EraseValid(sl, c);
      (SkipList(nodes, ShrinkLevel(nodes, sl.level), sl.size - 1), true)
    else
      (sl, false)
  }

  /**
   * The `update` vector of `insert`: the descent's stopping point on each
   * level in use, and the head on each new level the tower adds.
   */
  function InsertUpdates<V>(sl: SkipList<V>, key: int, h: nat): (u: seq<int>)
    requires Valid(sl) && h <= MaxLevel
    ensures |u| == MaxOf(h, sl.level)
    ensures forall i :: 0 <= i < |u| ==> LastBelow(sl.nodes, i, key, u[i])
    ensures forall i :: sl.level <= i < |u| ==> u[i] == Head
  {
    Descents(sl.nodes, Head, sl.level, key) + seq(MaxOf(h, sl.level) - sl.level, _ => Head)
  }

  /**
   * On each level below the new tower's height, `insert` splices the new
   * node into that level's chain right after `update[i]`, between it and
   * its old successor; every higher level's chain is left as it was.
   */
  lemma InsertSplicesLevels<V>(sl: SkipList<V>, key: int, value: V, h: nat, update: seq<int>)
    requires Valid(sl) && 1 <= h <= MaxLevel && key !in ToMap(sl.nodes)
    requires update == InsertUpdates(sl, key, h)
    ensures |update| >= h
    ensures forall i :: 0 <= i < h ==>
      Chain(sl.nodes, i) == Chain(sl.nodes[..update[i] + 1], i) + Chain(sl.nodes[update[i] + 1..], i)
    ensures forall i :: 0 <= i < h ==>
      Chain(Insert(sl, key, value, h).0.nodes, i) ==
        Chain(sl.nodes[..update[i] + 1], i) + [Node(key, value, h)] + Chain(sl.nodes[update[i] + 1..], i)
    ensures forall i :: h <= i ==> Chain(Insert(sl, key, value, h).0.nodes, i) == Chain(sl.nodes, i)
  {
    var c := Predecessor(sl, key) + 1;
    Locate(sl.nodes, c, key);
    assert Insert(sl, key, value, h).0.nodes == sl.nodes[..c] + [Node(key, value, h)] + sl.nodes[c..];
    UpdatesBeforeCut(sl.nodes, key, c, update);
    SpliceAllLevels(sl.nodes, c, Node(key, value, h), update);
    forall i | 0 <= i < h
      ensures Chain(sl.nodes, i) == Chain(sl.nodes[..update[i] + 1], i) + Chain(sl.nodes[update[i] + 1..], i)
    {
      ChainSplit(sl.nodes, update[i] + 1, i);
    }
    forall i | h <= i ensures Chain(sl.nodes[..c] + [Node(key, value, h)] + sl.nodes[c..], i) == Chain(sl.nodes, i) {
      SpliceAbove(sl.nodes, c, Node(key, value, h), i);
    }
  }

  /** Every `update[i]` lies before the first node not below `key`, with nothing on level `i` in between. */
  lemma UpdatesBeforeCut<V>(nodes: seq<Node<V>>, key: int, c: nat, u: seq<int>)
    requires c <= |nodes|
    requires forall k :: 0 <= k < c ==> nodes[k].key < key
    requires forall k :: c <= k < |nodes| ==> key <= nodes[k].key
    requires forall i :: 0 <= i < |u| ==> LastBelow(nodes, i, key, u[i])
    ensures forall i :: 0 <= i < |u| ==> Head <= u[i] < c
    ensures forall i :: 0 <= i < |u| ==> ClearBetween(nodes, u[i], c, i)
  {
  }

  /** `insert`'s splice on every level the new tower covers, given where each level's `update` entry sits. */
  lemma SpliceAllLevels<V>(nodes: seq<Node<V>>, c: nat, n: Node<V>, u: seq<int>)
    requires c <= |nodes| && n.height <= |u|
    requires forall i :: 0 <= i < |u| ==> Head <= u[i] < c
    requires forall i :: 0 <= i < |u| ==> ClearBetween(nodes, u[i], c, i)
    ensures forall i :: 0 <= i < n.height ==>
      Chain(nodes[..c] + [n] + nodes[c..], i) == Chain(nodes[..u[i] + 1], i) + [n] + Chain(nodes[u[i] + 1..], i)
  {
    forall i | 0 <= i < n.height
      ensures Chain(nodes[..c] + [n] + nodes[c..], i) == Chain(nodes[..u[i] + 1], i) + [n] + Chain(nodes[u[i] + 1..], i)
    {
      SpliceLevel(nodes, u[i], c, n, i);
    }
  }

  /**
   * One level of `insert`'s splice that the new tower covers: with nothing
   * on level `lvl` strictly between `u` and the insertion point `c`, the
   * node lands on that level right after `u`.
   */
  lemma SpliceLevel<V>(nodes: seq<Node<V>>, u: int, c: nat, n: Node<V>, lvl: nat)
    requires Head <= u < c <= |nodes| && ClearBetween(nodes, u, c, lvl) && lvl < n.height
    ensures Chain(nodes[..c] + [n] + nodes[c..], lvl) == Chain(nodes[..u + 1], lvl) + [n] + Chain(nodes[u + 1..], lvl)
  {
    ChainConcat(nodes[..c] + [n], nodes[c..], lvl);
    ChainConcat(nodes[..c], [n], lvl);
    ChainCut(nodes, u, c, lvl);
    ChainSingle(n, lvl);
  }

  /** A level above the new tower: splicing the node into the chain leaves that level as it was. */
  lemma SpliceAbove<V>(nodes: seq<Node<V>>, c: nat, n: Node<V>, lvl: nat)
    requires c <= |nodes| && n.height <= lvl
    ensures Chain(nodes[..c] + [n] + nodes[c..], lvl) == Chain(nodes, lvl)
  {
    ChainConcat(nodes[..c] + [n], nodes[c..], lvl);
    ChainConcat(nodes[..c], [n], lvl);
    ChainSingle(n, lvl);
    assert nodes == nodes[..c] + nodes[c..];
    ChainConcat(nodes[..c], nodes[c..], lvl);
  }

  /**
   * Where `erase` lands for a present key: the node right after `update[0]`
   * holds the key, and on every level in use no node lies between
   * `update[i]` and that node.
   */
  lemma EraseLanding<V>(sl: SkipList<V>, key: int, update: seq<int>, c: nat)
    requires Valid(sl) && key in ToMap(sl.nodes)
    requires update == Descents(sl.nodes, Head, sl.level, key) && c == update[0] + 1
    ensures |update| == sl.level && c < |sl.nodes|
    ensures sl.nodes[c].key == key && sl.nodes[c].height <= sl.level
    ensures forall i :: 0 <= i < |update| ==> Head <= update[i] < c
    ensures forall i :: 0 <= i < |update| ==> ClearBetween(sl.nodes, update[i], c, i)
  {
    assert Predecessor(sl, key) == update[0];
    Locate(sl.nodes, c, key);
    UpdatesBeforeCut(sl.nodes, key, c, update);
  }

  /**
   * `erase`'s unlink loop finds the erased node right after `update[i]`
   * exactly on the levels its tower covers, so the loop's `break` fires at
   * the first level above the tower, and never below it.
   */
  lemma EraseBreaksAboveTower<V>(sl: SkipList<V>, key: int, update: seq<int>, c: nat)
    requires Valid(sl) && key in ToMap(sl.nodes)
    requires update == Descents(sl.nodes, Head, sl.level, key) && c == update[0] + 1
    ensures |update| == sl.level && c < |sl.nodes| && sl.nodes[c].key == key
    ensures forall i :: 0 <= i < sl.level ==>
      (Next(sl.nodes, update[i], i) == c <==> i < sl.nodes[c].height)
  {
    EraseLanding(sl, key, update, c);
    forall i | 0 <= i < sl.level
      ensures Next(sl.nodes, update[i], i) == c <==> i < sl.nodes[c].height
    {
      NextAcrossClear(sl.nodes, update[i], c, i);
    }
  }

  /** The forward pointer of `u` on level `lvl` is `c` exactly when `c` is on that level and nothing lies between. */
  lemma NextAcrossClear<V>(nodes: seq<Node<V>>, u: int, c: nat, lvl: nat)
    requires Head <= u < c < |nodes| && ClearBetween(nodes, u, c, lvl)
    ensures Next(nodes, u, lvl) == c <==> lvl < nodes[c].height
  {
  }

  /**
   * `erase` of a present key cuts the node out of each level its tower
   * covers, right after `update[i]`, and leaves every other level's chain
   * as it was.
   */
  lemma EraseUnlinksLevels<V>(sl: SkipList<V>, key: int, update: seq<int>, c: nat)
    requires Valid(sl) && key in ToMap(sl.nodes)
    requires update == Descents(sl.nodes, Head, sl.level, key) && c == update[0] + 1
    ensures |update| == sl.level && c < |sl.nodes|
    ensures sl.nodes[c].key == key && sl.nodes[c].height <= sl.level
    ensures forall i :: 0 <= i < sl.nodes[c].height ==>
      Chain(sl.nodes, i) == Chain(sl.nodes[..update[i] + 1], i) + [sl.nodes[c]] + Chain(sl.nodes[c + 1..], i)
    ensures forall i :: 0 <= i < sl.nodes[c].height ==>
      Chain(Erase(sl, key).0.nodes, i) == Chain(sl.nodes[..update[i] + 1], i) + Chain(sl.nodes[c + 1..], i)
    ensures forall i :: sl.nodes[c].height <= i ==> Chain(Erase(sl, key).0.nodes, i) == Chain(sl.nodes, i)
  {
    EraseLanding(sl, key, update, c);
    EraseNodes(sl, key, update, c);
    UnlinkAllLevels(sl.nodes, c, update);
  }

  /** The chain `erase` leaves behind for a present key: the one without the node after `update[0]`. */
  lemma EraseNodes<V>(sl: SkipList<V>, key: int, update: seq<int>, c: nat)
    requires Valid(sl) && key in ToMap(sl.nodes)
    requires update == Descents(sl.nodes, Head, sl.level, key) && c == update[0] + 1
    requires c < |sl.nodes| && sl.nodes[c].key == key
    ensures Erase(sl, key).0.nodes == sl.nodes[..c] + sl.nodes[c + 1..]
  {
    assert Predecessor(sl, key) == update[0];
  }

  /** `erase`'s unlink on every level, given where each level's `update` entry sits. */
  lemma UnlinkAllLevels<V>(nodes: seq<Node<V>>, c: nat, u: seq<int>)
    requires c < |nodes| && nodes[c].height <= |u|
    requires forall i :: 0 <= i < |u| ==> Head <= u[i] < c
    requires forall i :: 0 <= i < |u| ==> ClearBetween(nodes, u[i], c, i)
    ensures forall i :: 0 <= i < nodes[c].height ==>
      Chain(nodes, i) == Chain(nodes[..u[i] + 1], i) + [nodes[c]] + Chain(nodes[c + 1..], i)
    ensures forall i :: 0 <= i < nodes[c].height ==>
      Chain(nodes[..c] + nodes[c + 1..], i) == Chain(nodes[..u[i] + 1], i) + Chain(nodes[c + 1..], i)
    ensures forall i :: nodes[c].height <= i ==> Chain(nodes[..c] + nodes[c + 1..], i) == Chain(nodes, i)
  {
    forall i | 0 <= i < nodes[c].height
      ensures Chain(nodes, i) == Chain(nodes[..u[i] + 1], i) + [nodes[c]] + Chain(nodes[c + 1..], i)
      ensures Chain(nodes[..c] + nodes[c + 1..], i) == Chain(nodes[..u[i] + 1], i) + Chain(nodes[c + 1..], i)
    {
      UnlinkLevel(nodes, u[i], c, i);
    }
    forall i | nodes[c].height <= i ensures Chain(nodes[..c] + nodes[c + 1..], i) == Chain(nodes, i) {
      UnlinkAbove(nodes, c, i);
    }
  }

  /**
   * One level of `erase`'s unlink that the erased tower covers: with
   * nothing on level `lvl` strictly between `u` and the erased position
   * `c`, the node leaves that level's chain right after `u`.
   */
  lemma UnlinkLevel<V>(nodes: seq<Node<V>>, u: int, c: nat, lvl: nat)
    requires Head <= u < c < |nodes| && ClearBetween(nodes, u, c, lvl) && lvl < nodes[c].height
    ensures Chain(nodes, lvl) == Chain(nodes[..u + 1], lvl) + [nodes[c]] + Chain(nodes[c + 1..], lvl)
    ensures Chain(nodes[..c] + nodes[c + 1..], lvl) == Chain(nodes[..u + 1], lvl) + Chain(nodes[c + 1..], lvl)
  {
    var x := nodes[c];
    assert nodes[c..] == [x] + nodes[c + 1..];
    ChainConcat([x], nodes[c + 1..], lvl);
    ChainSingle(x, lvl);
    ChainCut(nodes, u, c, lvl);
    ChainConcat(nodes[..c], nodes[c + 1..], lvl);
  }

  /** A level above the erased tower: unlinking the node leaves that level's chain as it was. */
  lemma UnlinkAbove<V>(nodes: seq<Node<V>>, c: nat, lvl: nat)
    requires c < |nodes| && nodes[c].height <= lvl
    ensures Chain(nodes[..c] + nodes[c + 1..], lvl) == Chain(nodes, lvl)
  {
    var x := nodes[c];
    assert nodes == nodes[..c] + ([x] + nodes[c + 1..]);
    ChainConcat(nodes[..c], [x] + nodes[c + 1..], lvl);
    ChainConcat([x], nodes[c + 1..], lvl);
    ChainSingle(x, lvl);
    ChainConcat(nodes[..c], nodes[c + 1..], lvl);
  }

  /**
   * `get_random_level`: start at level 1 and climb one level per successful
   * coin draw (`draws[i]` is true when the i-th draw falls below P = 0.5),
   * stopping at the first failed draw or at `MaxLevel`.
   */
  function RandomLevel(draws: seq<bool>): (r: nat)
    ensures 1 <= r <= MaxLevel
    ensures r - 1 <= |draws| && forall i :: 0 <= i < r - 1 ==> draws[i]
    ensures r < MaxLevel && r - 1 < |draws| ==> !draws[r - 1]
  {
    Climb(draws, 1)
  }

  function Climb(draws: seq<bool>, level: nat): (r: nat)
    requires 1 <= level <= MaxLevel
    ensures level <= r <= MaxLevel
    ensures r - level <= |draws| && forall i :: 0 <= i < r - level ==> draws[i]
    ensures r < MaxLevel && r - level < |draws| ==> !draws[r - level]
    decreases |draws|
  {
    if |draws| > 0 && draws[0] && level < MaxLevel then
      var r := Climb(draws[1..], level + 1);
      assert forall i :: 1 <= i < |draws| ==> draws[1..][i - 1] == draws[i];
      r
    else level
  }

  /** `size`: the element count, which is the number of keys the list maps. */
  function Size<V>(sl: SkipList<V>): (n: nat)
    requires Valid(sl)
    ensures n == |ToMap(sl.nodes)|
  {
    ToMapFacts(sl.nodes);
    sl.size
  }

  /** `empty`: true exactly when the list maps no key. */
  function IsEmpty<V>(sl: SkipList<V>): (b: bool)
    requires Valid(sl)
    ensures b <==> ToMap(sl.nodes) == map[]
  {
    ToMapFacts(sl.nodes);
    sl.size == 0
  }

  /**
   * Iteration from `begin()` along level-0 forward pointers: every mapped
   * key exactly once, with its value, in ascending key order.
   */
  function Items<V>(sl: SkipList<V>): (r: seq<(int, V)>)
    requires Valid(sl)
    ensures |r| == sl.size
    ensures forall i, j :: 0 <= i < j < |r| ==> r[i].0 < r[j].0
    ensures forall i :: 0 <= i < |r| ==> r[i].0 in ToMap(sl.nodes) && ToMap(sl.nodes)[r[i].0] == r[i].1
    ensures forall k :: k in ToMap(sl.nodes) ==> exists i :: 0 <= i < |r| && r[i].0 == k
  {
    ToMapFacts(sl.nodes);
    var r := seq(|sl.nodes|, i requires 0 <= i < |sl.nodes| => (sl.nodes[i].key, sl.nodes[i].value));
    assert forall i :: 0 <= i < |sl.nodes| ==> r[i].0 == sl.nodes[i].key;
    r
  }

  /**
   * `find`: the position in iteration order of the node holding an
   * equivalent key, or None (the end iterator) when no node does.
   */
  function FindPosition<V>(sl: SkipList<V>, key: int): (r: Option<nat>)
    requires Valid(sl)
    ensures r.Some? <==> key in ToMap(sl.nodes)
    ensures r.Some? ==> r.value < |Items(sl)| && Items(sl)[r.value] == (key, ToMap(sl.nodes)[key])
  {
    var c := Predecessor(sl, key) + 1;
    Locate(sl.nodes, c, key);
    if c < |sl.nodes| && Equiv(sl.nodes[c].key, key) then Some(c) else None
  }

  /**
   * Inserting 5, 3 and 7, then 5 again; the duplicate is rejected, three
   * elements remain and each is found. Erasing 3 succeeds and leaves two;
   * erasing the absent 10 fails. Tower heights are arbitrary.
   */
  lemma BasicOperationsScenario(h1: nat, h2: nat, h3: nat, h4: nat)
    requires 1 <= h1 <= MaxLevel && 1 <= h2 <= MaxLevel && 1 <= h3 <= MaxLevel && 1 <= h4 <= MaxLevel
    ensures var s1 := Insert(New(), 5, "five", h1);
      var s2 := Insert(s1.0, 3, "three", h2);
      var s3 := Insert(s2.0, 7, "seven", h3);
      var s4 := Insert(s3.0, 5, "five_duplicate", h4);
      var e1 := Erase(s4.0, 3);
      var e2 := Erase(e1.0, 10);
      && s1.1 && s2.1 && s3.1 && !s4.1 && Size(s4.0) == 3
      && Search(s4.0, 5, "") == (true, "five")
      && Search(s4.0, 3, "") == (true, "three")
      && Search(s4.0, 7, "") == (true, "seven")
      && Search(s4.0, 10, "x") == (false, "x")
      && e1.1 && Size(e1.0) == 2 && !Search(e1.0, 3, "").0
      && !e2.1
  {
    var s2 := Insert(Insert(New(), 5, "five", h1).0, 3, "three", h2).0;
    ScenarioFirstInserts(h1, h2);
    var s3 := Insert(s2, 7, "seven", h3).0;
    FreshInsert(s2, 7, "seven", h3);
    assert ToMap(s3.nodes) == map[5 := "five", 3 := "three", 7 := "seven"];
    ScenarioDuplicate(s3);
    ScenarioLookups(s3);
    ScenarioErasures(s3);
  }

  /** The first two inserts of the scenario, 5 then 3, both succeed. */
  lemma ScenarioFirstInserts(h1: nat, h2: nat)
    requires 1 <= h1 <= MaxLevel && 1 <= h2 <= MaxLevel
    ensures var s1 := Insert(New(), 5, "five", h1);
      var s2 := Insert(s1.0, 3, "three", h2);
      && s1.1 && s2.1 && Valid(s2.0) && s2.0.size == 2
      && ToMap(s2.0.nodes) == map[5 := "five", 3 := "three"]
  {
    var s1 := Insert(New(), 5, "five", h1);
    FreshInsert(New(), 5, "five", h1);
    FreshInsert(s1.0, 3, "three", h2);
  }

  /**
   * `Insert`'s fresh-key postconditions, restated for one call so the
   * scenario does not unfold `Insert` itself; it adds no new fact and only
   * keeps the scenario's proof small.
   */
  lemma FreshInsert<V>(sl: SkipList<V>, key: int, value: V, h: nat)
    requires Valid(sl) && key !in ToMap(sl.nodes) && 1 <= h <= MaxLevel
    ensures var r := Insert(sl, key, value, h);
      && r.1 && Valid(r.0) && r.0.size == sl.size + 1
      && ToMap(r.0.nodes) == ToMap(sl.nodes)[key := value]
  {
  }

  /** Re-inserting 5 into the list holding 3, 5 and 7 is rejected whatever tower height is drawn. */
  lemma ScenarioDuplicate(sl: SkipList<string>)
    requires Valid(sl) && ToMap(sl.nodes) == map[5 := "five", 3 := "three", 7 := "seven"]
    ensures forall h :: 1 <= h <= MaxLevel ==> Insert(sl, 5, "five_duplicate", h) == (sl, false)
  {
    assert 5 in ToMap(sl.nodes);
  }

  /** Lookups in the list holding 3, 5 and 7: each is found with its value and 10 is absent. */
  lemma ScenarioLookups(sl: SkipList<string>)
    requires Valid(sl) && sl.size == 3 && ToMap(sl.nodes) == map[5 := "five", 3 := "three", 7 := "seven"]
    ensures Size(sl) == 3
    ensures Search(sl, 5, "") == (true, "five")
    ensures Search(sl, 3, "") == (true, "three")
    ensures Search(sl, 7, "") == (true, "seven")
    ensures Search(sl, 10, "x") == (false, "x")
  {
    var m := ToMap(sl.nodes);
    assert 5 in m && m[5] == "five";
    assert 3 in m && m[3] == "three";
    assert 7 in m && m[7] == "seven";
    assert 10 !in m;
  }

  /** Erasing 3 from the list holding 3, 5 and 7 leaves two elements without 3; erasing 10 then fails. */
  lemma ScenarioErasures(sl: SkipList<string>)
    requires Valid(sl) && sl.size == 3 && ToMap(sl.nodes) == map[5 := "five", 3 := "three", 7 := "seven"]
    ensures var e1 := Erase(sl, 3);
      && e1.1 && Size(e1.0) == 2 && !Search(e1.0, 3, "").0
      && !Erase(e1.0, 10).1
  {
    assert 3 in ToMap(sl.nodes);
    var e1 := Erase(sl, 3);
    var m := ToMap(e1.0.nodes);
    assert m == ToMap(sl.nodes) - {3};
    assert 3 !in m && 10 !in m;
  }
}
=== FILE: trie.dfy ===
/**
 * A prefix tree over characters, as implemented by `Trie`. Each node has an
 * end-of-word flag and a map from character to child; the class's owning
 * child pointers become a recursive datatype. Dafny's `char` stands for the
 * byte-sized `char` that a `std::string_view` yields.
 */
module PrefixTree {
  import opened Wrappers

  datatype Trie = Node(endOfWord: bool, children: map<char, Trie>)

  /** The tree a fresh `Trie` starts with: one root that ends no word and has no children. */
  const Empty: Trie := Node(false, map[])

  /** `p` is a prefix of `w`. */
  predicate IsPrefix(p: string, w: string) {
    |p| <= |w| && w[..|p|] == p
  }

  /**
   * `insert`: walk the word from the root, creating each missing child on
   * the way, and mark the node reached as the end of a word.
   */
  function Insert(t: Trie, w: string): (r: Trie)
    ensures Search(r, w) && StartsWith(r, w)
    decreases |w|
  {
    if |w| == 0 then t.(endOfWord := true)
    else
      var child := if w[0] in t.children then t.children[w[0]] else Empty;
      t.(children := t.children[w[0] := Insert(child, w[1..])])
  }

  /** The walk shared by `search` and `starts_with`: the node reached by reading `p`, if any. */
  function Walk(t: Trie, p: string): Option<Trie>
    decreases |p|
  {
    if |p| == 0 then Some(t)
    else if p[0] !in t.children then None
    else Walk(t.children[p[0]], p[1..])
  }

  /**
   * The walk reads its input one character at a time: reading `p` and then
   * `q` from `t` is reading `q` from wherever `p` leads, and a missing child
   * on the way ends the walk for good.
   */
  lemma {:induction false} WalkConcat(t: Trie, p: string, q: string)
    ensures Walk(t, p + q) == if Walk(t, p).None? then None else Walk(Walk(t, p).value, q)
    decreases |p|
  {
    if |p| > 0 {
      assert (p + q)[0] == p[0] && (p + q)[1..] == p[1..] + q;
      if p[0] in t.children {
        WalkConcat(t.children[p[0]], p[1..], q);
      }
    } else {
      assert p + q == q;
    }
  }

  /** `search`: the walk reaches a node and that node ends a word. */
  function Search(t: Trie, w: string): (b: bool)
    ensures b ==> StartsWith(t, w)
    ensures |w| == 0 ==> (b <==> t.endOfWord)
    ensures |w| > 0 && w[0] !in t.children ==> !b
  {
    Walk(t, w).Some? && Walk(t, w).value.endOfWord
  }

  /** `starts_with`: the walk reaches a node. */
  function StartsWith(t: Trie, p: string): (b: bool)
    ensures |p| == 0 ==> b
    ensures |p| > 0 && p[0] !in t.children ==> !b
  {
    Walk(t, p).Some?
  }

  /** `starts_with` is closed under prefixes: every prefix of an accepted prefix is accepted. */
  lemma PrefixOfStartsWith(t: Trie, p: string, w: string)
    requires IsPrefix(p, w) && StartsWith(t, w)
    ensures StartsWith(t, p)
  {
    assert w == p + w[|p|..];
    WalkConcat(t, p, w[|p|..]);
  }

  /** The empty tree holds no word, and only the empty prefix. */
  lemma EmptyTrie(u: string)
    ensures !Search(Empty, u)
    ensures StartsWith(Empty, u) <==> |u| == 0
  {
  }

  /** After `insert(w)`, `search(u)` is true exactly for `w` and the words found before. */
  lemma {:induction false} SearchAfterInsert(t: Trie, w: string, u: string)
    ensures Search(Insert(t, w), u) <==> u == w || Search(t, u)
    decreases |w|
  {
    if |w| > 0 && |u| > 0 {
      var child := if w[0] in t.children then t.children[w[0]] else Empty;
      if u[0] == w[0] {
        SearchAfterInsert(child, w[1..], u[1..]);
        if w[0] !in t.children {
          EmptyTrie(u[1..]);
        }
        assert u == w <==> u[1..] == w[1..];
      }
    }
  }

  /** After `insert(w)`, `starts_with(p)` is true exactly for prefixes of `w` and the prefixes found before. */
  lemma {:induction false} StartsWithAfterInsert(t: Trie, w: string, p: string)
    ensures StartsWith(Insert(t, w), p) <==> IsPrefix(p, w) || StartsWith(t, p)
    decreases |w|
  {
    if |w| > 0 && |p| > 0 {
      var child := if w[0] in t.children then t.children[w[0]] else Empty;
      if p[0] == w[0] {
        StartsWithAfterInsert(child, w[1..], p[1..]);
        if w[0] !in t.children {
          EmptyTrie(p[1..]);
        }
        assert IsPrefix(p, w) <==> IsPrefix(p[1..], w[1..]);
      } else {
        if |p| <= |w| {
          assert w[..|p|][0] == w[0];
        }
      }
    }
  }

  /** A word found by `search` is also a prefix accepted by `starts_with`. */
  lemma SearchImpliesStartsWith(t: Trie, w: string)
    ensures Search(t, w) ==> StartsWith(t, w)
  {
  }

  /** Inserting the same word twice gives the same tree as inserting it once. */
  lemma {:induction false} InsertIdempotent(t: Trie, w: string)
    ensures Insert(Insert(t, w), w) == Insert(t, w)
    decreases |w|
  {
    if |w| > 0 {
      var child := if w[0] in t.children then t.children[w[0]] else Empty;
      InsertIdempotent(child, w[1..]);
      var t1 := Insert(t, w);
      assert t1.children[w[0]] == Insert(child, w[1..]);
      assert t1.children[w[0] := Insert(Insert(child, w[1..]), w[1..])] == t1.children;
    }
  }

  /** The tree built by inserting `words` one after another into an empty tree. */
  function InsertAll(words: seq<string>): Trie {
    if |words| == 0 then Empty else Insert(InsertAll(words[..|words| - 1]), words[|words| - 1])
  }

  /**
   * With only inserts, `search(u)` holds exactly for the inserted words, and
   * `starts_with(p)` exactly for the empty prefix and prefixes of inserted words.
   */
  lemma {:induction false} InsertAllContents(words: seq<string>, u: string)
    ensures Search(InsertAll(words), u) <==> u in words
    ensures StartsWith(InsertAll(words), u) <==>
      |u| == 0 || exists i :: 0 <= i < |words| && IsPrefix(u, words[i])
    decreases |words|
  {
    if |words| == 0 {
      EmptyTrie(u);
    } else {
      var init := words[..|words| - 1];
      var last := words[|words| - 1];
      InsertAllContents(init, u);
      SearchAfterInsert(InsertAll(init), last, u);
      StartsWithAfterInsert(InsertAll(init), last, u);
      assert words == init + [last];
      if exists i :: 0 <= i < |words| && IsPrefix(u, words[i]) {
        var i :| 0 <= i < |words| && IsPrefix(u, words[i]);
        if i < |words| - 1 {
          assert words[i] == init[i];
        }
      }
    }
  }

  /** After inserting "word": "word" is found, its extension and an unrelated word are not, "wo" is a prefix and "po" is not. */
  lemma WordScenario()
    ensures Search(Insert(Empty, "word"), "word")
    ensures !Search(Insert(Empty, "word"), "word_not_exist")
    ensures !Search(Insert(Empty, "word"), "not_exist")
    ensures StartsWith(Insert(Empty, "word"), "wo")
    ensures !StartsWith(Insert(Empty, "word"), "po")
  {
    SearchAfterInsert(Empty, "word", "word_not_exist");
    SearchAfterInsert(Empty, "word", "not_exist");
    EmptyTrie("word_not_exist");
    EmptyTrie("not_exist");
    StartsWithAfterInsert(Empty, "word", "wo");
    StartsWithAfterInsert(Empty, "word", "po");
    EmptyTrie("po");
    assert "word"[..2] == "wo";
    assert "word"[..2] != "po" by { assert "word"[..2][0] == 'w'; }
  }
}

=== FILE: union_find.dfy ===
/**
 * Union-find with union by rank and path compression, as implemented by
 * `DisjointSet<T>` and its older twin `DisjointSetUnion<T>`. Both classes run
 * the same algorithm over shared pointers; here the forest is an arena: a
 * sequence of nodes whose handles are indices and whose parent links are
 * optional indices. The payload is irrelevant to the algorithm and is dropped.
 */
module UnionFind {
  import opened Wrappers

  /** One element of the forest: its parent link (None for a root) and its rank. */
  datatype Node = Node(parent: Option<nat>, rank: nat)

  /** The arena of all nodes ever inserted, in insertion order. */
  type Forest = seq<Node>

  /**
   * Well-formedness: every parent link points inside the arena, to a node of
   * strictly greater rank. Rank increasing along parent edges is what makes
   * the parent relation acyclic and every walk to a root finite.
   */
  ghost predicate Valid(f: Forest) {
    forall i :: 0 <= i < |f| && f[i].parent.Some? ==>
      f[i].parent.value < |f| && f[i].rank < f[f[i].parent.value].rank
  }

  /** An upper bound on every rank of the forest; the termination measure of `Find`. */
  function MaxRank(f: Forest): (m: nat)
    ensures forall i :: 0 <= i < |f| ==> f[i].rank <= m
  {
    if |f| == 0 then 0
    else
      var m := MaxRank(f[..|f| - 1]);
      if f[|f| - 1].rank > m then f[|f| - 1].rank else m
  }

  /** `x` is `root` itself or one parent hop below it. */
  predicate OneHop(f: Forest, x: nat, root: nat)
    requires x < |f|
  {
    x == root || f[x].parent == Some(root)
  }

  /**
   * The root of the set holding `i`: follow parent links to the parentless
   * node. Reading the forest cannot change it, so `Find` is a pure walk.
   */
  function Find(f: Forest, i: nat): (r: nat)
    requires Valid(f) && i < |f|
    ensures r < |f| && f[r].parent.None? && OnPath(f, i, r)
    ensures f[i].parent.None? ==> r == i
    ensures f[i].parent.Some? ==> f[i].rank < f[r].rank
    decreases MaxRank(f) - f[i].rank
  {
    match f[i].parent
    case None => i
    case Some(p) => Find(f, p)
  }

  /** `y` lies on the parent chain that starts at `x`, `x` included. */
  ghost predicate OnPath(f: Forest, x: nat, y: nat)
    requires Valid(f) && x < |f|
    decreases MaxRank(f) - f[x].rank
  {
    x == y || (f[x].parent.Some? && OnPath(f, f[x].parent.value, y))
  }

  /** Every node on the chain from `x` shares `x`'s root and has at least `x`'s rank. */
  lemma {:induction false} OnPathSameRoot(f: Forest, x: nat, y: nat)
    requires Valid(f) && x < |f| && OnPath(f, x, y)
    ensures y < |f| && Find(f, y) == Find(f, x) && f[x].rank <= f[y].rank
    decreases MaxRank(f) - f[x].rank
  {
    if x != y {
      OnPathSameRoot(f, f[x].parent.value, y);
    }
  }

  /** `Find(f, x) == Find(f, Find(f, x))`: the root of a root is itself. */
  lemma FindIdempotent(f: Forest, x: nat)
    requires Valid(f) && x < |f|
    ensures Find(f, Find(f, x)) == Find(f, x)
  {
  }

  /** `OnPathSameRoot` for any two nodes, as an implication callers can use without a case split. */
  lemma OnPathImpliesSameRoot(f: Forest, x: nat, y: nat)
    requires Valid(f) && x < |f| && y < |f|
    ensures OnPath(f, x, y) ==> Find(f, y) == Find(f, x)
  {
    if OnPath(f, x, y) {
      OnPathSameRoot(f, x, y);
    }
  }

  /** Relinking the non-root `x` straight to its own root, one step of compression. */
  function Relink(f: Forest, x: nat, root: nat): (g: Forest)
    requires x < |f|
  {
    f[x := f[x].(parent := Some(root))]
  }

  lemma {:induction false} FindAfterRelink(f: Forest, x: nat, root: nat, z: nat)
    requires Valid(f) && x < |f| && root == Find(f, x) && x != root
    requires Valid(Relink(f, x, root)) && z < |f|
    ensures Find(Relink(f, x, root), z) == Find(f, z)
    decreases MaxRank(f) - f[z].rank
  {
    var g := Relink(f, x, root);
    if z == x {
      assert Find(g, x) == Find(g, root);
    } else {
      match f[z].parent
      case None =>
      case Some(p) => FindAfterRelink(f, x, root, p);
    }
  }

  /** Relinking a node to its own root keeps the forest valid and every root unchanged. */
  lemma RelinkPreservesFind(f: Forest, x: nat, root: nat)
    requires Valid(f) && x < |f| && root == Find(f, x) && x != root
    ensures Valid(Relink(f, x, root))
    ensures forall z :: 0 <= z < |f| ==> Relink(f, x, root)[z].rank == f[z].rank
    ensures forall z :: 0 <= z < |f| ==> Find(Relink(f, x, root), z) == Find(f, z)
  {
    var g := Relink(f, x, root);
    assert Valid(g) by {
      forall i | 0 <= i < |g| && g[i].parent.Some?
        ensures g[i].parent.value < |g| && g[i].rank < g[g[i].parent.value].rank
      {
        if i != x {
          assert g[i] == f[i];
        }
      }
    }
    forall z | 0 <= z < |f| ensures Find(g, z) == Find(f, z) {
      FindAfterRelink(f, x, root, z);
    }
  }

  /** A chain that starts above `x` (at a higher rank) does not see `x` relinked. */
  lemma {:induction false} OnPathAfterRelink(f: Forest, x: nat, root: nat, q: nat, y: nat)
    requires Valid(f) && x < |f| && root == Find(f, x) && x != root
    requires Valid(Relink(f, x, root))
    requires q < |f| && f[x].rank < f[q].rank
    ensures OnPath(Relink(f, x, root), q, y) <==> OnPath(f, q, y)
    decreases MaxRank(f) - f[q].rank
  {
    var g := Relink(f, x, root);
    assert g[q] == f[q];
    if q != y && f[q].parent.Some? {
      OnPathAfterRelink(f, x, root, f[q].parent.value, y);
    }
  }

  lemma RelinkKeepsPath(f: Forest, x: nat, root: nat, q: nat)
    requires Valid(f) && x < |f| && root == Find(f, x) && x != root
    requires Valid(Relink(f, x, root))
    requires q < |f| && f[x].rank < f[q].rank
    ensures forall y :: OnPath(Relink(f, x, root), q, y) <==> OnPath(f, q, y)
  {
    forall y ensures OnPath(Relink(f, x, root), q, y) <==> OnPath(f, q, y) {
      OnPathAfterRelink(f, x, root, q, y);
    }
  }

  /**
   * Path compression: walk from `node` towards its known `root` and point
   * every node met on the way directly at `root`. The walk stops at the
   * first node whose parent is `root` or that has no parent.
   */
  function Compress(f: Forest, node: nat, root: nat): (g: Forest)
    requires Valid(f) && node < |f| && root == Find(f, node)
    ensures Valid(g) && |g| == |f|
    ensures forall x :: 0 <= x < |f| ==> g[x].rank == f[x].rank
    ensures forall x :: 0 <= x < |f| ==> Find(g, x) == Find(f, x)
    ensures forall x :: 0 <= x < |f| && OnPath(f, node, x) ==> OneHop(g, x, root)
    ensures forall x :: 0 <= x < |f| && !OnPath(f, node, x) ==> g[x] == f[x]
    decreases f[root].rank - f[node].rank
  {
    match f[node].parent
    case None => f
    case Some(p) =>
      if p == root then f
      else
        var f1 := Relink(f, node, root);
        RelinkPreservesFind(f, node, root);
        assert Find(f, p) == root;
        assert f[node].rank < f[p].rank;
        assert f1[root].rank == f[root].rank && f1[p].rank == f[p].rank;
        var g := Compress(f1, p, root);
        CompressStep(f, node, root, p, g);
        g
  }

  /** One step of `Compress`: what holds of the rest of the walk holds of the whole walk. */
  lemma CompressStep(f: Forest, node: nat, root: nat, p: nat, g: Forest)
    requires Valid(f) && node < |f| && root == Find(f, node)
    requires f[node].parent == Some(p) && p != root
    requires Valid(Relink(f, node, root)) && Valid(g) && |g| == |f|
    requires forall x :: 0 <= x < |f| ==> g[x].rank == f[x].rank
    requires forall x :: 0 <= x < |f| ==> Find(g, x) == Find(Relink(f, node, root), x)
    requires forall x :: 0 <= x < |f| && OnPath(Relink(f, node, root), p, x) ==> OneHop(g, x, root)
    requires forall x :: 0 <= x < |f| && !OnPath(Relink(f, node, root), p, x) ==> g[x] == Relink(f, node, root)[x]
    ensures forall x :: 0 <= x < |f| ==> Find(g, x) == Find(f, x)
    ensures forall x :: 0 <= x < |f| && OnPath(f, node, x) ==> OneHop(g, x, root)
    ensures forall x :: 0 <= x < |f| && !OnPath(f, node, x) ==> g[x] == f[x]
  {
    var f1 := Relink(f, node, root);
    RelinkPreservesFind(f, node, root);
    RelinkKeepsPath(f, node, root, p);
    forall x | 0 <= x < |f| && OnPath(f, node, x) ensures OneHop(g, x, root) {
      if x == node {
        if OnPath(f, p, node) {
          OnPathSameRoot(f, p, node);
        }
        assert g[node] == f1[node];
      }
    }
  }

  /** Parent chains compose: a node on a chain through `b` that starts at `a` is on `a`'s chain. */
  lemma {:induction false} OnPathTrans(f: Forest, a: nat, b: nat, c: nat)
    requires Valid(f) && a < |f| && b < |f| && OnPath(f, a, b) && OnPath(f, b, c)
    ensures OnPath(f, a, c)
    decreases MaxRank(f) - f[a].rank
  {
    if a != b {
      OnPathTrans(f, f[a].parent.value, b, c);
    }
  }

  /**
   * If every node of `g` keeps its parent in `f` or points straight at its
   * root in `f`, as after compression, then chains in `g` only skip nodes:
   * whatever is on a chain of `g` is on the same chain of `f`.
   */
  lemma {:induction false} PathsOnlyShrink(f: Forest, g: Forest, m: nat, y: nat)
    requires Valid(f) && Valid(g) && |g| == |f| && m < |f|
    requires forall z :: 0 <= z < |f| ==> g[z].parent == f[z].parent || g[z].parent == Some(Find(f, z))
    ensures OnPath(g, m, y) ==> OnPath(f, m, y)
    decreases MaxRank(g) - g[m].rank
  {
    if m != y && g[m].parent.Some? {
      var q := g[m].parent.value;
      PathsOnlyShrink(f, g, q, y);
      if f[m].parent != Some(q) {
        assert f[q].parent.None?;
      }
    }
  }

  /** After `Compress`, every node keeps its parent or points straight at its root. */
  lemma CompressParents(f: Forest, node: nat, root: nat, g: Forest)
    requires Valid(f) && node < |f| && root == Find(f, node) && g == Compress(f, node, root)
    ensures forall z :: 0 <= z < |f| ==> g[z].parent == f[z].parent || g[z].parent == Some(Find(f, z))
  {
    forall z | 0 <= z < |f|
      ensures g[z].parent == f[z].parent || g[z].parent == Some(Find(f, z))
    {
      if OnPath(f, node, z) {
        OnPathSameRoot(f, node, z);
        if z == root {
          assert Find(g, z) == z;
        }
      }
    }
  }

  /**
   * A chain of `f` that never meets `n`'s chain survives in any `g` that
   * changes only nodes on `n`'s chain.
   */
  lemma {:induction false} PathOutsideKept(f: Forest, g: Forest, n: nat, m: nat, x: nat)
    requires Valid(f) && Valid(g) && |g| == |f| && n < |f| && m < |f| && x < |f|
    requires forall z :: 0 <= z < |f| && !OnPath(f, n, z) ==> g[z] == f[z]
    requires OnPath(f, m, x) && !OnPath(f, n, x)
    ensures OnPath(g, m, x)
    decreases MaxRank(f) - f[m].rank
  {
    if m != x {
      if OnPath(f, n, m) {
        OnPathTrans(f, n, m, x);
      }
      PathOutsideKept(f, g, n, f[m].parent.value, x);
    }
  }

  /**
   * Compressing `a`'s path onto its root and then `b`'s onto its root, as
   * `are_same_set` and `merge` do: every node on either path ends one hop
   * from its root, and every node on neither path is untouched.
   */
  lemma CompressTwo(f: Forest, a: nat, b: nat, g1: Forest, g2: Forest)
    requires Valid(f) && a < |f| && b < |f|
    requires g1 == Compress(f, a, Find(f, a)) && g2 == Compress(g1, b, Find(f, b))
    ensures forall x :: 0 <= x < |f| && OnPath(f, a, x) ==> OneHop(g2, x, Find(f, a))
    ensures forall x :: 0 <= x < |f| && OnPath(f, b, x) ==> OneHop(g2, x, Find(f, b))
    ensures forall x :: 0 <= x < |f| && !OnPath(f, a, x) && !OnPath(f, b, x) ==> g2[x] == f[x]
  {
    CompressFirstPath(f, a, b, g1, g2);
    CompressSecondPath(f, a, b, g1, g2);
    CompressTwoFrame(f, a, b, g1, g2);
  }

  /** The first compressed path stays one hop from its root through the second compression. */
  lemma CompressFirstPath(f: Forest, a: nat, b: nat, g1: Forest, g2: Forest)
    requires Valid(f) && a < |f| && b < |f|
    requires g1 == Compress(f, a, Find(f, a)) && g2 == Compress(g1, b, Find(f, b))
    ensures forall x :: 0 <= x < |f| && OnPath(f, a, x) ==> OneHop(g2, x, Find(f, a))
  {
    forall x | 0 <= x < |f| && OnPath(f, a, x) ensures OneHop(g2, x, Find(f, a)) {
      if OnPath(g1, b, x) {
        OnPathSameRoot(g1, b, x);
        OnPathSameRoot(f, a, x);
      }
    }
  }

  /**
   * Every node on `b`'s original path ends one hop from its root: either the
   * second compression reaches it, or the first one already moved it.
   */
  lemma CompressSecondPath(f: Forest, a: nat, b: nat, g1: Forest, g2: Forest)
    requires Valid(f) && a < |f| && b < |f|
    requires g1 == Compress(f, a, Find(f, a)) && g2 == Compress(g1, b, Find(f, b))
    ensures forall x :: 0 <= x < |f| && OnPath(f, b, x) ==> OneHop(g2, x, Find(f, b))
  {
    forall x | 0 <= x < |f| && OnPath(f, b, x) ensures OneHop(g2, x, Find(f, b)) {
      if !OnPath(g1, b, x) {
        if !OnPath(f, a, x) {
          PathOutsideKept(f, g1, a, b, x);
        }
        OnPathSameRoot(f, a, x);
        OnPathSameRoot(f, b, x);
      }
    }
  }

  /** Nodes on neither original path are untouched by both compressions. */
  lemma CompressTwoFrame(f: Forest, a: nat, b: nat, g1: Forest, g2: Forest)
    requires Valid(f) && a < |f| && b < |f|
    requires g1 == Compress(f, a, Find(f, a)) && g2 == Compress(g1, b, Find(f, b))
    ensures forall x :: 0 <= x < |f| && !OnPath(f, a, x) && !OnPath(f, b, x) ==> g2[x] == f[x]
  {
    forall x | 0 <= x < |f| && !OnPath(f, a, x) && !OnPath(f, b, x) ensures g2[x] == f[x] {
      CompressShrinks(f, a, Find(f, a), g1, b, x);
    }
  }

  /** Compression only shortens chains: a node on a chain afterwards was on that chain before. */
  lemma CompressShrinks(f: Forest, node: nat, root: nat, g: Forest, m: nat, y: nat)
    requires Valid(f) && node < |f| && root == Find(f, node) && g == Compress(f, node, root) && m < |f|
    ensures OnPath(g, m, y) ==> OnPath(f, m, y)
  {
    CompressParents(f, node, root, g);
    PathsOnlyShrink(f, g, m, y);
  }

  /**
   * `insert`: append a fresh parentless node of rank 0 and return its handle.
   * No existing node changes, and the new node is alone in its set.
   */
  function Insert(f: Forest): (r: (Forest, nat))
    requires Valid(f)
    ensures Valid(r.0) && |r.0| == |f| + 1 && r.1 == |f|
    ensures r.0[r.1].parent == None && r.0[r.1].rank == 0
    ensures forall x :: 0 <= x < |f| ==> r.0[x] == f[x]
    ensures forall x :: 0 <= x < |f| ==> Find(r.0, x) == Find(f, x)
    ensures Find(r.0, r.1) == r.1
    ensures forall x :: 0 <= x < |f| ==> Find(r.0, x) != r.1
  {
    var g := f + [Node(None, 0)];
    forall x | 0 <= x < |f| ensures Find(g, x) == Find(f, x) {
      FindAfterAppend(f, Node(None, 0), x);
    }
    (g, |f|)
  }

  lemma {:induction false} FindAfterAppend(f: Forest, n: Node, x: nat)
    requires Valid(f) && Valid(f + [n]) && x < |f|
    ensures Find(f + [n], x) == Find(f, x)
    decreases MaxRank(f) - f[x].rank
  {
    assert (f + [n])[x] == f[x];
    match f[x].parent
    case None =>
    case Some(p) => FindAfterAppend(f, n, p);
  }

  /**
   * `are_same_set`: find both roots, compress both query paths onto them,
   * and report whether the roots are the same node. The query mutates the
   * forest, but never the partition it represents.
   */
  function AreSameSet(f: Forest, a: nat, b: nat): (r: (Forest, bool))
    requires Valid(f) && a < |f| && b < |f|
    ensures Valid(r.0) && |r.0| == |f|
    ensures r.1 <==> Find(f, a) == Find(f, b)
    ensures forall x :: 0 <= x < |f| ==> r.0[x].rank == f[x].rank
    ensures forall x :: 0 <= x < |f| ==> Find(r.0, x) == Find(f, x)
    ensures OneHop(r.0, a, Find(f, a)) && OneHop(r.0, b, Find(f, b))
    ensures forall x :: 0 <= x < |f| && OnPath(f, a, x) ==> OneHop(r.0, x, Find(f, a))
    ensures forall x :: 0 <= x < |f| && OnPath(f, b, x) ==> OneHop(r.0, x, Find(f, b))
    ensures forall x :: 0 <= x < |f| && !OnPath(f, a, x) && !OnPath(f, b, x) ==> r.0[x] == f[x]
  {
    var ra := Find(f, a);
    var rb := Find(f, b);
    var g1 := Compress(f, a, ra);
    var g2 := Compress(g1, b, rb);
    OnPathImpliesSameRoot(g1, b, a);
    CompressTwo(f, a, b, g1, g2);
    (g2, ra == rb)
  }

  /** The root that survives `merge`: `a`'s root on a tie or a higher rank, else `b`'s. */
  function Survivor(f: Forest, ra: nat, rb: nat): nat
    requires ra < |f| && rb < |f|
  {
    if f[ra].rank >= f[rb].rank then ra else rb
  }

  /**
   * The linking step of `DisjointSet::merge` as it is written, with no
   * check that the two roots differ: the lower-ranked root is hung under the
   * other, and on equal ranks `ra` survives and gains one rank. Nothing but
   * the two roots changes.
   */
  function LinkAsWritten(f: Forest, ra: nat, rb: nat): (g: Forest)
    requires ra < |f| && rb < |f|
    ensures |g| == |f|
    ensures f[ra].rank >= f[rb].rank ==>
      g[rb].parent == Some(ra) && g[ra].rank == f[ra].rank + (if f[ra].rank == f[rb].rank then 1 else 0)
    ensures f[ra].rank < f[rb].rank ==> g[ra].parent == Some(rb) && g[rb] == f[rb]
    ensures ra != rb && f[ra].rank >= f[rb].rank ==> g[ra].parent == f[ra].parent
    ensures ra != rb && f[ra].rank >= f[rb].rank ==> g[rb].rank == f[rb].rank
    ensures f[ra].rank < f[rb].rank ==> g[ra].rank == f[ra].rank
    ensures forall x :: 0 <= x < |f| && x != ra && x != rb ==> g[x] == f[x]
  {
    if f[ra].rank >= f[rb].rank then
      var bump := if f[ra].rank == f[rb].rank then 1 else 0;
      var f1 := f[rb := f[rb].(parent := Some(ra))];
      f1[ra := f1[ra].(rank := f1[ra].rank + bump)]
    else
      f[ra := f[ra].(parent := Some(rb))]
  }

  /**
   * Merging two nodes that already share a root, as `merge` does, makes
   * that root its own parent: the forest is no longer valid and a later
   * `find` from any node of that set walks the self-loop forever.
   */
  lemma SelfMergeCreatesCycle(f: Forest, a: nat, b: nat)
    requires Valid(f) && a < |f| && b < |f| && Find(f, a) == Find(f, b)
    ensures var r := Find(f, a);
      && LinkAsWritten(f, r, r)[r].parent == Some(r)
      && LinkAsWritten(f, r, r)[r].rank == f[r].rank + 1
      && !Valid(LinkAsWritten(f, r, r))
  {
    var r := Find(f, a);
    var g := LinkAsWritten(f, r, r);
    assert g[r] == Node(Some(r), f[r].rank + 1);
    assert !(g[r].rank < g[g[r].parent.value].rank);
  }

  /** Linking two distinct roots joins exactly their two sets. */
  lemma {:induction false} FindAfterLink(f: Forest, ra: nat, rb: nat, z: nat)
    requires Valid(f) && ra < |f| && rb < |f| && ra != rb
    requires f[ra].parent.None? && f[rb].parent.None?
    requires Valid(LinkAsWritten(f, ra, rb)) && z < |f|
    ensures Find(LinkAsWritten(f, ra, rb), z) ==
      if Find(f, z) == ra || Find(f, z) == rb then Survivor(f, ra, rb) else Find(f, z)
    decreases MaxRank(f) - f[z].rank
  {
    var g := LinkAsWritten(f, ra, rb);
    var s := Survivor(f, ra, rb);
    if z == ra || z == rb {
      assert g[s].parent.None?;
      if z != s {
        assert g[z].parent == Some(s);
        assert Find(g, z) == Find(g, s);
      }
    } else {
      assert g[z] == f[z];
      match f[z].parent
      case None =>
      case Some(p) => FindAfterLink(f, ra, rb, p);
    }
  }

  /** Link two distinct roots; the forest stays valid and only the survivor's rank may grow. */
  function Link(f: Forest, ra: nat, rb: nat): (g: Forest)
    requires Valid(f) && ra < |f| && rb < |f| && ra != rb
    requires f[ra].parent.None? && f[rb].parent.None?
    ensures Valid(g) && |g| == |f|
    ensures forall x :: 0 <= x < |f| ==>
      Find(g, x) == if Find(f, x) == ra || Find(f, x) == rb then Survivor(f, ra, rb) else Find(f, x)
    ensures forall x :: 0 <= x < |f| && x != Survivor(f, ra, rb) ==> g[x].rank == f[x].rank
    ensures f[ra].rank >= f[rb].rank ==>
      g[ra].rank == f[ra].rank + (if f[ra].rank == f[rb].rank then 1 else 0)
    ensures f[ra].rank < f[rb].rank ==> g[rb].rank == f[rb].rank
    ensures g[Survivor(f, ra, rb)].rank == f[Survivor(f, ra, rb)].rank + (if f[ra].rank == f[rb].rank then 1 else 0)
    ensures g[Survivor(f, ra, rb)].parent.None?
    ensures g[if Survivor(f, ra, rb) == ra then rb else ra].parent == Some(Survivor(f, ra, rb))
    ensures forall x :: 0 <= x < |f| && x != ra && x != rb ==> g[x] == f[x]
  {
    var g := LinkAsWritten(f, ra, rb);
    assert Valid(g) by {
      forall i | 0 <= i < |g| && g[i].parent.Some?
        ensures g[i].parent.value < |g| && g[i].rank < g[g[i].parent.value].rank
      {
        if i != ra && i != rb {
          assert g[i] == f[i];
        }
      }
    }
    forall x | 0 <= x < |f|
      ensures Find(g, x) == if Find(f, x) == ra || Find(f, x) == rb then Survivor(f, ra, rb) else Find(f, x)
    {
      FindAfterLink(f, ra, rb, x);
    }
    g
  }

  /**
   * `merge` of two nodes with distinct roots: link the roots by rank, then
   * compress both argument paths onto the surviving root.
   */
  function LinkAndCompress(f: Forest, a: nat, b: nat): (g: Forest)
    requires Valid(f) && a < |f| && b < |f| && Find(f, a) != Find(f, b)
    ensures Valid(g) && |g| == |f|
    ensures Find(g, a) == Survivor(f, Find(f, a), Find(f, b)) && Find(g, b) == Find(g, a)
    ensures forall x :: 0 <= x < |f| ==>
      Find(g, x) == if Find(f, x) == Find(f, a) || Find(f, x) == Find(f, b) then Find(g, a) else Find(f, x)
    ensures forall x :: 0 <= x < |f| && x != Find(g, a) ==> g[x].rank == f[x].rank
    ensures g[Find(g, a)].rank == f[Find(g, a)].rank + (if f[Find(f, a)].rank == f[Find(f, b)].rank then 1 else 0)
    ensures OneHop(g, a, Find(g, a)) && OneHop(g, b, Find(g, a))
    ensures forall x :: 0 <= x < |f| && (OnPath(f, a, x) || OnPath(f, b, x)) ==> OneHop(g, x, Find(g, a))
    ensures forall x :: 0 <= x < |f| && !OnPath(f, a, x) && !OnPath(f, b, x) ==> g[x] == f[x]
  {
    var ra := Find(f, a);
    var rb := Find(f, b);
    var s := Survivor(f, ra, rb);
    var g0 := Link(f, ra, rb);
    var g1 := Compress(g0, a, s);
    var g2 := Compress(g1, b, s);
    CompressBoth(g0, a, b, s, g1, g2);
    MergedRoots(f, a, b, g0, g2);
    MergedRanks(f, a, b, g0, g2);
    LinkCompressPaths(f, a, b, g0, g1, g2);
    g2
  }

  /**
   * Linking two roots only adds a parent to the root that is hung: every
   * chain of `f` is still a chain afterwards, and a chain afterwards meets
   * nothing new but the two roots.
   */
  lemma {:induction false} LinkPaths(f: Forest, ra: nat, rb: nat, m: nat, x: nat)
    requires Valid(f) && ra < |f| && rb < |f| && ra != rb
    requires f[ra].parent.None? && f[rb].parent.None? && m < |f|
    ensures OnPath(f, m, x) ==> OnPath(Link(f, ra, rb), m, x)
    ensures OnPath(Link(f, ra, rb), m, x) ==> OnPath(f, m, x) || x == ra || x == rb
    decreases MaxRank(f) - f[m].rank
  {
    var g := Link(f, ra, rb);
    var s := Survivor(f, ra, rb);
    if m != x {
      match f[m].parent
      case Some(p) =>
        assert g[m] == f[m];
        LinkPaths(f, ra, rb, p, x);
      case None =>
        if m != ra && m != rb {
          assert g[m] == f[m];
        } else if m != s {
          assert g[m].parent == Some(s);
          assert OnPath(g, m, x) ==> OnPath(g, s, x);
        }
    }
  }

  /** The path clauses of `LinkAndCompress`: both argument paths end one hop from the survivor, and nothing else moves. */
  lemma LinkCompressPaths(f: Forest, a: nat, b: nat, g0: Forest, g1: Forest, g2: Forest)
    requires Valid(f) && a < |f| && b < |f| && Find(f, a) != Find(f, b)
    requires g0 == Link(f, Find(f, a), Find(f, b))
    requires g1 == Compress(g0, a, Survivor(f, Find(f, a), Find(f, b)))
    requires g2 == Compress(g1, b, Survivor(f, Find(f, a), Find(f, b)))
    ensures forall x :: 0 <= x < |f| && (OnPath(f, a, x) || OnPath(f, b, x)) ==>
      OneHop(g2, x, Survivor(f, Find(f, a), Find(f, b)))
    ensures forall x :: 0 <= x < |f| && !OnPath(f, a, x) && !OnPath(f, b, x) ==> g2[x] == f[x]
  {
    var ra, rb := Find(f, a), Find(f, b);
    CompressTwo(g0, a, b, g1, g2);
    forall x | 0 <= x < |f| && (OnPath(f, a, x) || OnPath(f, b, x))
      ensures OneHop(g2, x, Survivor(f, ra, rb))
    {
      LinkPaths(f, ra, rb, a, x);
      LinkPaths(f, ra, rb, b, x);
    }
    forall x | 0 <= x < |f| && !OnPath(f, a, x) && !OnPath(f, b, x) ensures g2[x] == f[x] {
      LinkPaths(f, ra, rb, a, x);
      LinkPaths(f, ra, rb, b, x);
    }
  }

  /** The roots after linking and compressing: exactly the two classes are joined under the survivor. */
  lemma MergedRoots(f: Forest, a: nat, b: nat, g0: Forest, g: Forest)
    requires Valid(f) && a < |f| && b < |f| && Find(f, a) != Find(f, b)
    requires g0 == Link(f, Find(f, a), Find(f, b))
    requires Valid(g) && |g| == |f| && forall x :: 0 <= x < |f| ==> Find(g, x) == Find(g0, x)
    ensures Find(g, a) == Survivor(f, Find(f, a), Find(f, b)) && Find(g, b) == Find(g, a)
    ensures forall x :: 0 <= x < |f| ==>
      Find(g, x) == if Find(f, x) == Find(f, a) || Find(f, x) == Find(f, b) then Find(g, a) else Find(f, x)
  {
  }

  /** The ranks after linking and compressing: only the survivor's may change, by one on a tie. */
  lemma MergedRanks(f: Forest, a: nat, b: nat, g0: Forest, g: Forest)
    requires Valid(f) && a < |f| && b < |f| && Find(f, a) != Find(f, b)
    requires g0 == Link(f, Find(f, a), Find(f, b))
    requires Valid(g) && |g| == |f| && forall x :: 0 <= x < |f| ==> Find(g, x) == Find(g0, x)
    requires forall x :: 0 <= x < |f| ==> g[x].rank == g0[x].rank
    ensures Find(g, a) == Survivor(f, Find(f, a), Find(f, b))
    ensures forall x :: 0 <= x < |f| && x != Find(g, a) ==> g[x].rank == f[x].rank
    ensures g[Find(g, a)].rank == f[Find(g, a)].rank + (if f[Find(f, a)].rank == f[Find(f, b)].rank then 1 else 0)
  {
    MergedRoots(f, a, b, g0, g);
  }

  /** Compressing the paths of two nodes of one set onto its root keeps every rank and root, and leaves both one hop away. */
  lemma CompressBoth(f: Forest, a: nat, b: nat, s: nat, g1: Forest, g2: Forest)
    requires Valid(f) && a < |f| && b < |f| && Find(f, a) == s && Find(f, b) == s
    requires g1 == Compress(f, a, s) && g2 == Compress(g1, b, s)
    ensures Valid(g2) && |g2| == |f|
    ensures forall x :: 0 <= x < |f| ==> g2[x].rank == f[x].rank
    ensures forall x :: 0 <= x < |f| ==> Find(g2, x) == Find(f, x)
    ensures OneHop(g2, a, s) && OneHop(g2, b, s)
  {
    OnPathImpliesSameRoot(g1, b, a);
  }

  /**
   * `merge` with a guard on equal roots: merging two members of one set must
   * leave the partition as it is, so when both nodes already share a root
   * nothing changes; otherwise the roots are linked by rank and both
   * argument paths are compressed onto the surviving root.
   */
  function Merge(f: Forest, a: nat, b: nat): (g: Forest)
    requires Valid(f) && a < |f| && b < |f|
    ensures Valid(g) && |g| == |f|
    ensures Find(g, a) == Find(g, b)
    ensures Find(f, a) == Find(f, b) ==> g == f
    ensures Find(f, a) != Find(f, b) ==> Find(g, a) == Survivor(f, Find(f, a), Find(f, b))
    ensures forall x :: 0 <= x < |f| ==>
      Find(g, x) == if Find(f, x) == Find(f, a) || Find(f, x) == Find(f, b) then Find(g, a) else Find(f, x)
  {
    if Find(f, a) == Find(f, b) then f else LinkAndCompress(f, a, b)
  }

  /** `merge` never splits a set: nodes together before are together after. */
  lemma MergeNeverSplits(f: Forest, a: nat, b: nat, x: nat, y: nat)
    requires Valid(f) && a < |f| && b < |f| && x < |f| && y < |f|
    requires Find(f, x) == Find(f, y)
    ensures Find(Merge(f, a, b), x) == Find(Merge(f, a, b), y)
  {
  }

  /** The first merge of two fresh singletons: `a`'s root wins the tie and gains rank 1. */
  lemma {:induction false} FirstMergeScenario(f: Forest)
    requires f == [Node(None, 0), Node(None, 0), Node(None, 0)]
    ensures Valid(f)
    ensures Merge(f, 0, 1) == [Node(None, 1), Node(Some(0), 0), Node(None, 0)]
  {
    assert Find(f, 0) == 0 && Find(f, 1) == 1 && Find(f, 2) == 2;
    var g := Merge(f, 0, 1);
    assert Find(g, 0) == 0 && Find(g, 2) == 2;
    assert g[0].parent == None && g[2].parent == None;
    assert g[1].parent == Some(0);
    assert g[0].rank == 1 && g[1].rank == 0 && g[2].rank == 0;
    ThreeNodes(g);
  }

  /** Merging a rank-0 singleton into a rank-1 root hangs it under that root, ranks unchanged. */
  lemma {:induction false} SecondMergeScenario(f: Forest)
    requires f == [Node(None, 1), Node(Some(0), 0), Node(None, 0)]
    ensures Merge(f, 0, 2) == [Node(None, 1), Node(Some(0), 0), Node(Some(0), 0)]
  {
    assert Valid(f);
    assert Find(f, 0) == 0 && Find(f, 1) == 0 && Find(f, 2) == 2;
    var g := Merge(f, 0, 2);
    assert Find(g, 0) == 0 && Find(g, 1) == 0;
    assert g[0].parent == None && g[2].parent == Some(0);
    assert g[0].rank == 1 && g[1].rank == 0 && g[2].rank == 0;
    assert g[1].parent == Some(0);
    ThreeNodes(g);
  }

  /** A three-node forest is the literal of its nodes; the scenarios use it to compare a computed forest with an expected one. */
  lemma ThreeNodes(g: Forest)
    requires |g| == 3
    ensures g == [g[0], g[1], g[2]]
  {
  }

  /** Inserting three elements into an empty forest gives three rank-0 roots. */
  lemma InsertThreeScenario()
    ensures Insert(Insert(Insert([]).0).0).0 == [Node(None, 0), Node(None, 0), Node(None, 0)]
  {
  }

  /**
   * Three fresh singletons; merging the first with the second and then with
   * the third leaves the first as the root, with rank 1 from the tie, and
   * both others one hop below it.
   */
  lemma ThreeSingletonsScenario(f: Forest)
    requires f == [Node(None, 0), Node(None, 0), Node(None, 0)]
    ensures Merge(Merge(f, 0, 1), 0, 2) == [Node(None, 1), Node(Some(0), 0), Node(Some(0), 0)]
  {
    FirstMergeScenario(f);
    SecondMergeScenario(Merge(f, 0, 1));
  }
}

=== FILE: weighted_lru.dfy ===
/**
 * A capacity-weighted LRU cache, as implemented by `WeightedLRU<K, V>`. The
 * class keeps a doubly linked list of entries, most recently used first,
 * plus a hash map from key to list position and a running total of entry
 * sizes. Here the list is a sequence, the hash map is the lookup `IndexOf`
 * over that sequence, and the running total is an explicit field whose
 * agreement with the sizes is an invariant.
 */
module WeightedLru {
  import opened Wrappers

  /** One cached item: key, value and its weight against the capacity. */
  datatype Entry<K, V> = Entry(key: K, value: V, size: int)

  /** The cache state: its capacity, the running total of sizes, and the entries MRU-first. */
  datatype Cache<K, V> = Cache(capacity: int, used: int, store: seq<Entry<K, V>>)

  /** Error reported by `get` on a missing key. */
  const NoSuchKey: string := "No such key!"

  /** Error raised by `put` for an item heavier than the whole capacity. */
  const TooBig: string := "Sorry this is too big!"

  /** Total weight of a run of entries. */
  function Weight<K, V>(s: seq<Entry<K, V>>): int {
    if |s| == 0 then 0 else Weight(s[..|s| - 1]) + s[|s| - 1].size
  }

  predicate DistinctKeys<K(==), V>(s: seq<Entry<K, V>>) {
    forall i, j :: 0 <= i < j < |s| ==> s[i].key != s[j].key
  }

  /** The representation invariant: the running total is the sum of sizes, and keys are unique. */
  ghost predicate Valid<K, V>(c: Cache<K, V>) {
    c.used == Weight(c.store) && DistinctKeys(c.store)
  }

  /** The keys currently cached: exactly the domain of `m_cache_positions`. */
  function Keys<K(==), V>(s: seq<Entry<K, V>>): set<K> {
    set i | 0 <= i < |s| :: s[i].key
  }

  /** The position index: where `k` sits in the entry list, if anywhere. */
  function IndexOf<K(==), V>(s: seq<Entry<K, V>>, k: K): (r: Option<nat>)
    ensures r.Some? ==> r.value < |s| && s[r.value].key == k
    ensures r.None? <==> k !in Keys(s)
  {
    if |s| == 0 then None
    else if s[0].key == k then Some(0)
    else
      match IndexOf(s[1..], k)
      case None => None
      case Some(i) => Some(i + 1)
  }

  /** The entry list with position `i` unlinked, every other entry in its old order. */
  function RemoveAt<K, V>(s: seq<Entry<K, V>>, i: nat): seq<Entry<K, V>>
    requires i < |s|
  {
    s[..i] + s[i + 1..]
  }

  /** The entry list with the entry for `k` unlinked if there is one. */
  function Without<K(==), V>(s: seq<Entry<K, V>>, k: K): seq<Entry<K, V>> {
    match IndexOf(s, k)
    case None => s
    case Some(i) => RemoveAt(s, i)
  }

  lemma {:induction false} WeightCons<K, V>(e: Entry<K, V>, s: seq<Entry<K, V>>)
    ensures Weight([e] + s) == e.size + Weight(s)
    decreases |s|
  {
    if |s| > 0 {
      assert ([e] + s)[..|s|] == [e] + s[..|s| - 1];
      WeightCons(e, s[..|s| - 1]);
    }
  }

  lemma {:induction false} WeightRemoveAt<K, V>(s: seq<Entry<K, V>>, i: nat)
    requires i < |s|
    ensures Weight(RemoveAt(s, i)) == Weight(s) - s[i].size
    decreases |s|
  {
    if i == |s| - 1 {
      assert RemoveAt(s, i) == s[..|s| - 1];
    } else {
      var t := s[..|s| - 1];
      assert RemoveAt(s, i) == RemoveAt(t, i) + [s[|s| - 1]];
      assert RemoveAt(s, i)[..|s| - 2] == RemoveAt(t, i);
      WeightRemoveAt(t, i);
    }
  }

  lemma RemoveAtKeys<K, V>(s: seq<Entry<K, V>>, i: nat)
    requires i < |s| && DistinctKeys(s)
    ensures DistinctKeys(RemoveAt(s, i))
    ensures Keys(RemoveAt(s, i)) == Keys(s) - {s[i].key}
  {
    var r := RemoveAt(s, i);
    assert forall j :: 0 <= j < |r| ==> r[j] == if j < i then s[j] else s[j + 1];
    forall k | k in Keys(s) - {s[i].key} ensures k in Keys(r) {
      var j :| 0 <= j < |s| && s[j].key == k;
      if j < i { assert r[j].key == k; } else { assert r[j - 1].key == k; }
    }
  }

  /** `RemoveAtKeys` as an implication, so `Unlink` can use it without requiring distinct keys. */
  lemma RemoveAtKeysIfDistinct<K, V>(s: seq<Entry<K, V>>, i: nat)
    requires i < |s|
    ensures DistinctKeys(s) ==> DistinctKeys(RemoveAt(s, i)) && Keys(RemoveAt(s, i)) == Keys(s) - {s[i].key}
  {
    if DistinctKeys(s) { RemoveAtKeys(s, i); }
  }

  /** A new, empty cache of the given capacity. */
  function New<K(==), V>(capacity: int): (c: Cache<K, V>)
    ensures Valid(c) && c.capacity == capacity && Keys(c.store) == {}
  {
    Cache(capacity, 0, [])
  }

  /**
   * `get`: on a miss, report "No such key!" and leave the cache as it was; on
   * a hit, return the value and splice its entry to the front, keeping the
   * other entries in order and the total weight unchanged.
   */
  function Get<K(==), V>(c: Cache<K, V>, k: K): (r: (Cache<K, V>, Result<V, string>))
    requires Valid(c)
    ensures Valid(r.0) && r.0.capacity == c.capacity && r.0.used == c.used
    ensures multiset(r.0.store) == multiset(c.store)
    ensures k !in Keys(c.store) ==> r == (c, Err(NoSuchKey))
    ensures forall i :: 0 <= i < |c.store| && c.store[i].key == k ==>
      r.1 == Ok(c.store[i].value) && r.0.store == [c.store[i]] + RemoveAt(c.store, i)
  {
    match IndexOf(c.store, k)
    case None => (c, Err(NoSuchKey))
    case Some(i) =>
      MoveToFront(c.store, i);
      (Cache(c.capacity, c.used, [c.store[i]] + RemoveAt(c.store, i)), Ok(c.store[i].value))
  }

  /** Splicing one entry to the front keeps the entries, their weight and key uniqueness. */
  lemma MoveToFront<K, V>(s: seq<Entry<K, V>>, i: nat)
    requires i < |s| && DistinctKeys(s)
    ensures Weight([s[i]] + RemoveAt(s, i)) == Weight(s)
    ensures DistinctKeys([s[i]] + RemoveAt(s, i))
    ensures multiset([s[i]] + RemoveAt(s, i)) == multiset(s)
    ensures forall j :: 0 <= j < |s| && s[j].key == s[i].key ==> j == i
  {
    WeightCons(s[i], RemoveAt(s, i));
    WeightRemoveAt(s, i);
    MoveToFrontKeys(s, i);
    MoveToFrontPerm(s, i);
  }

  lemma MoveToFrontPerm<K, V>(s: seq<Entry<K, V>>, i: nat)
    requires i < |s|
    ensures multiset([s[i]] + RemoveAt(s, i)) == multiset(s)
  {
    assert s == s[..i] + [s[i]] + s[i + 1..];
  }

  lemma MoveToFrontKeys<K, V>(s: seq<Entry<K, V>>, i: nat)
    requires i < |s| && DistinctKeys(s)
    ensures DistinctKeys([s[i]] + RemoveAt(s, i))
  {
    var r := RemoveAt(s, i);
    RemoveAtKeys(s, i);
    var t := [s[i]] + r;
    forall a, b | 0 <= a < b < |t| ensures t[a].key != t[b].key {
      if a == 0 {
        assert t[b] == r[b - 1];
        assert t[b].key in Keys(r);
      } else {
        assert t[a] == r[a - 1] && t[b] == r[b - 1];
      }
    }
  }

  /**
   * The eviction loop of `put`: while the new item of weight `size` does not
   * fit beside `used`, drop the least recently used entry (the back). The
   * loop never meets an empty list: with nothing stored the total is 0 and
   * the item was already checked against the capacity.
   */
  function Evict<K(==), V>(s: seq<Entry<K, V>>, used: int, size: int, capacity: int): (r: (seq<Entry<K, V>>, int))
    requires used == Weight(s) && size <= capacity
    ensures r.1 == Weight(r.0) && r.1 + size <= capacity
    ensures |r.0| <= |s| && r.0 == s[..|r.0|]
    ensures forall j :: |r.0| < j <= |s| ==> Weight(s[..j]) + size > capacity
    decreases |s|
  {
    if used + size <= capacity then (s, used)
    else
      assert |s| > 0;
      var t := s[..|s| - 1];
      var r := Evict(t, used - s[|s| - 1].size, size, capacity);
      assert forall j :: 0 <= j <= |t| ==> t[..j] == s[..j];
      assert s[..|s|] == s;
      r
  }

  /** The update path of `put`: unlink the old entry for `k`, taking its weight off the total. */
  function Unlink<K(==), V>(s: seq<Entry<K, V>>, used: int, k: K): (r: (seq<Entry<K, V>>, int))
    requires used == Weight(s)
    ensures r.0 == Without(s, k) && r.1 == Weight(r.0)
    ensures k !in Keys(s) ==> r == (s, used)
    ensures k in Keys(s) ==> |r.0| == |s| - 1
    ensures DistinctKeys(s) ==> DistinctKeys(r.0) && Keys(r.0) == Keys(s) - {k}
  {
    match IndexOf(s, k)
    case None => (s, used)
    case Some(i) =>
      WeightRemoveAt(s, i);
      RemoveAtKeysIfDistinct(s, i);
      (RemoveAt(s, i), used - s[i].size)
  }

  /**
   * `put`: reject an item heavier than the capacity; otherwise unlink any
   * old entry for the key (and its weight), evict from the back until the
   * item fits, and push the item to the front.
   */
  function Put<K(==), V>(c: Cache<K, V>, k: K, v: V, size: int): (r: Result<Cache<K, V>, string>)
    requires Valid(c)
    ensures r.Err? <==> size > c.capacity
    ensures r.Err? ==> r.error == TooBig
    ensures r.Ok? ==> Valid(r.value) && r.value.capacity == c.capacity && r.value.used <= c.capacity
    ensures r.Ok? ==> |r.value.store| > 0 && r.value.store[0] == Entry(k, v, size)
    ensures r.Ok? ==> var rest := Without(c.store, k);
      && |r.value.store| - 1 <= |rest|
      && r.value.store[1..] == rest[..|r.value.store| - 1]
      && (forall j :: |r.value.store| - 1 < j <= |rest| ==> Weight(rest[..j]) + size > c.capacity)
  {
    if size > c.capacity then Err(TooBig)
    else
      var (rest, used) := Unlink(c.store, c.used, k);
      var (kept, used') := Evict(rest, used, size, c.capacity);
      var e := Entry(k, v, size);
      WeightCons(e, kept);
      WithoutKeys(c.store, k);
      PrefixKeys(rest, |kept|);
      Ok(Cache(c.capacity, used' + size, [e] + kept))
  }

  lemma WithoutKeys<K, V>(s: seq<Entry<K, V>>, k: K)
    requires DistinctKeys(s)
    ensures DistinctKeys(Without(s, k)) && k !in Keys(Without(s, k))
  {
    match IndexOf(s, k)
    case None =>
    case Some(i) => RemoveAtKeys(s, i);
  }

  lemma PrefixKeys<K, V>(s: seq<Entry<K, V>>, n: nat)
    requires n <= |s| && DistinctKeys(s)
    ensures DistinctKeys(s[..n]) && Keys(s[..n]) <= Keys(s)
  {
    assert forall j :: 0 <= j < n ==> s[..n][j] == s[j];
  }

  /** A successful `put(k, v, _)` followed by `get(k)` returns `v`, and the cache stays as it was. */
  lemma PutThenGet<K, V>(c: Cache<K, V>, k: K, v: V, size: int)
    requires Valid(c) && size <= c.capacity
    ensures Put(c, k, v, size).Ok?
    ensures Get(Put(c, k, v, size).value, k) == (Put(c, k, v, size).value, Ok(v))
  {
    var c' := Put(c, k, v, size).value;
    assert IndexOf(c'.store, k) == Some(0);
    assert [c'.store[0]] + RemoveAt(c'.store, 0) == c'.store;
  }

  /**
   * Capacity 10: put "a" and "b" of weight 4 each, touch "a", then put "c"
   * of weight 4. "b" is now the least recently used entry and is the one
   * evicted; "a" and "c" keep their values.
   */
  lemma EvictionOrderAfterAccessScenario()
    ensures var c1 := Put(New<string, int>(10), "a", 1, 4).value;
      var c2 := Put(c1, "b", 2, 4).value;
      var c3 := Get(c2, "a").0;
      var c4 := Put(c3, "c", 3, 4).value;
      && Get(c4, "b").1 == Err(NoSuchKey)
      && Get(c4, "a").1 == Ok(1)
      && Get(c4, "c").1 == Ok(3)
  {
    var c1 := Put(New<string, int>(10), "a", 1, 4).value;
    assert c1.store == [Entry("a", 1, 4)];
    var c2 := Put(c1, "b", 2, 4).value;
    ScenarioSecondPut(c1, c2);
    var c3 := Get(c2, "a").0;
    ScenarioTouch(c2, c3);
    var c4 := Put(c3, "c", 3, 4).value;
    ScenarioThirdPut(c3, c4);
    ScenarioLookups(c4);
  }

  /** A fresh cache of capacity 10 reports "No such key!" for any key and stays as it was. */
  lemma MissingKeyScenario()
    ensures Get(New<string, int>(10), "missing") == (New(10), Err(NoSuchKey))
  {
    assert "missing" !in Keys(New<string, int>(10).store);
  }

  lemma ScenarioTouch(c2: Cache<string, int>, c3: Cache<string, int>)
    requires c2 == Cache(10, 8, [Entry("b", 2, 4), Entry("a", 1, 4)]) && c3 == Get(c2, "a").0
    ensures c3 == Cache(10, 8, [Entry("a", 1, 4), Entry("b", 2, 4)])
  {
    var s := c2.store;
    assert s[1].key == "a";
    assert RemoveAt(s, 1) == [s[0]];
  }

  lemma ScenarioLookups(c4: Cache<string, int>)
    requires c4 == Cache(10, 8, [Entry("c", 3, 4), Entry("a", 1, 4)])
    ensures Get(c4, "b").1 == Err(NoSuchKey)
    ensures Get(c4, "a").1 == Ok(1)
    ensures Get(c4, "c").1 == Ok(3)
  {
    var s := c4.store;
    assert "b" !in Keys(s) by {
      assert forall i :: 0 <= i < |s| ==> s[i].key != "b";
    }
    assert s[0].key == "c" && s[1].key == "a";
  }

  lemma ScenarioSecondPut(c1: Cache<string, int>, c2: Cache<string, int>)
    requires c1 == Cache(10, 4, [Entry("a", 1, 4)]) && c2 == Put(c1, "b", 2, 4).value
    ensures c2 == Cache(10, 8, [Entry("b", 2, 4), Entry("a", 1, 4)])
  {
    assert Without(c1.store, "b") == c1.store;
    assert Weight([Entry("a", 1, 4)]) == 4;
  }

  lemma ScenarioThirdPut(c3: Cache<string, int>, c4: Cache<string, int>)
    requires c3 == Cache(10, 8, [Entry("a", 1, 4), Entry("b", 2, 4)]) && c4 == Put(c3, "c", 3, 4).value
    ensures c4 == Cache(10, 8, [Entry("c", 3, 4), Entry("a", 1, 4)])
  {
    var rest := c3.store;
    assert IndexOf(rest, "c") == None;
    assert Without(rest, "c") == rest;
    assert Weight(rest[..1]) == 4;
    assert Weight(rest[..2]) == 8;
    assert Weight(c4.store) == c4.used;
  }
}

=== FILE: wrappers.dfy ===
/** Small failure-carrying datatypes shared by the container models. */
module Wrappers {

  /** An optional value: the model's stand-in for a null pointer or a missing entry. */
  datatype Option<+T> = None | Some(value: T)

  /** Either a value or an error message, as `std::expected` or an exception would carry. */
  datatype Result<+T, +E> = Ok(value: T) | Err(error: E)
}
